=== FILE: README.md ===
# steward: a Dafny model of the plain-data / typed-object engine

`steward` maps plain Python data (dicts, lists, strings, numbers, `None`)
to typed records and back. A record class (`Component`) declares slots with
field descriptors:

- `Field` is a simple value.
- `FieldComp(type)` is a nested record.
- `FieldDict(type)` is a keyed collection of records.
- `FieldList(type)` is an ordered collection of records.

Each record keeps two stores in step:

- the decode cache (`instance.__dict__`);
- the backing plain tree (`_plain_`), which is shared by reference with its
  parent's tree, never copied.

Slots decode lazily on first read. A `DictProxy` keeps a memo of decoded
elements over a plain dict. A `ListProxy` keeps a shadow list of decoded
elements over a plain list. The metaclass builds each class's `_fields_`
(an ordered name-to-field dict) and `_names_`. The constructor validates
keywords strictly: it reports extra and missing names.

The model is a functional state machine over one explicit object store:

- `Heap.World` is a map from `Ref` to heap object. Plain dicts and lists,
  records and proxies are all heap objects, so Python identity and aliasing
  are equality of refs.
- Every operation is a pure function from a world to an `Outcome`. An
  `Outcome` is either `Ok(world, value)` or `Err(world, error)`. The error
  case carries a world because several operations mutate before they raise.
- Class definition is an explicit builder over an append-only `Registry`.
  A class's id is its position in the registry, so bases precede the
  classes built on them.

Modules, in dependency order:

| module | what it holds |
|---|---|
| `Wrappers` | `Option` and `Result` |
| `Heap` | values, heap objects, `World`, allocation and store, identity-preserving evolution (`Extends`/`Grows`), the source's exceptions, Python index arithmetic |
| `Text` | `sorted()` and `', '.join()` over names |
| `Schema` | field descriptors, `_fields_`/`_names_`, `Namespace` + `ComponentMeta` as `DeclareClass`, `isinstance` over record types, `FieldComp.__init__` |
| `Slots` | `Field.__get__`/`__set__` and the four `getter`/`setter` pairs |
| `Dicts` | `DictProxy` and the `FieldDict` slot |
| `Lists` | `ListProxy` (as written and corrected) and the `FieldList` slot |
| `Records` | `Component.__init__`, `from_plain`, `as_plain` |
| `Scenarios` | the repository's basic and inheritance test classes, stated over the model |

Three details of the code are easy to misread:

- Inherited `_fields_` are merged with `dict.update` in base order, so the
  LAST base that has a name wins.
- A name that a class body rebinds keeps its inherited position in
  `_fields_`, because assigning to an existing dict key keeps its place.
- `FieldComp.__init__` with a wrong-typed default evaluates `self.type`
  before that attribute is assigned. It raises `AttributeError`, not the
  intended `TypeError`. `Schema.CompField` models the intended check and
  reports `TypeMismatch`. Both are refusals, and no caller tells them apart.

## Model

| member | source | states |
|---|---|---|
| Heap.NormIndex | steward/__init__.py:164-168 | Python indexing of a list of length n succeeds exactly for -n <= i < n, and then the position is congruent to i modulo n |
| Heap.Message | steward/__init__.py:252-273 | for one name the constructor's texts are exactly "Extra params: 'n'" and "Missing params: 'n'"; only the errors the source formats itself (these two, "not initialized", "cannot be set", "Not allowed") have a text |
| Heap.InsertPos | steward/__init__.py:191-197 | `list.insert` puts in-range positions as given, counts negatives from the end and clamps out-of-range positions to the ends |
| Text.Sort | steward/__init__.py:253 | `sorted()` yields an ordered permutation of its input |
| Text.Join | steward/__init__.py:253 | `', '.join`: no names give the empty text and one name gives that name alone, with no separator |
| Text.JoinSnoc | steward/__init__.py:272 | joining one more name appends the separator and that name |
| Text.SortDeterministic | steward/__init__.py:265-272 | the sorted report depends only on which names were collected, not on the (set-iteration) order they were collected in |
| Text.SortedUnique | steward/__init__.py:272 | an ordered arrangement of a multiset of names is unique |
| Schema.Put | steward/__init__.py:229 | assigning a dict key: the key maps to the new field, every other key keeps its field, an existing key keeps its position and a new key goes last |
| Schema.Merge | steward/__init__.py:223 | `dict.update`: keys are the union, and a key of the update takes the update's field, otherwise the original's |
| Schema.MergePositions | steward/__init__.py:223 | `dict.update` keeps every original key in its place and appends the update's new keys in the update's order, each once |
| Schema.Inherit | steward/__init__.py:218-223 | `Namespace.__init__`: the inherited names are the union of the record-type bases' `_fields_` keys |
| Schema.SuppliedMembers | steward/__init__.py:221-223 | a name is in that union exactly when some base has it in its `_fields_` |
| Schema.Layer | steward/__init__.py:225-232 | the class body never removes a name from the table or undoes a binding (`set_name` mutates the field even when a later statement raises), and a body with a `del` never succeeds |
| Schema.Lookup | steward/__init__.py:266 | `fields[name]` finds a field exactly for a key of the table, and finds the entry stored under that key |
| Schema.Initial | steward/__init__.py:246 | the registry with only `Component`, which declares no field, is well formed |
| Schema.ComponentBases | steward/__init__.py:221-222 | the record-type bases of a class are exactly the bases that are `Component` subclasses |
| Schema.DeclareClass | steward/__init__.py:235-243 | defining a class appends exactly one class with the next id on success, and leaves the class list unchanged on failure; earlier names of field objects are never changed |
| Schema.InheritLookup | steward/__init__.py:218-223 | the inherited table has a name exactly when some base provides it, and then holds the field of the last base that has it |
| Schema.InheritWF | steward/__init__.py:218-223 | the inherited table has distinct keys, and each field is stored under the name it was bound to |
| Schema.LayerLookup | steward/__init__.py:225-229 | layering the class body puts each own field over the inherited one of the same name, and other names keep theirs |
| Schema.LayerWF | steward/__init__.py:225-229 | layering keeps the table a dict whose fields are bound to their own keys |
| Schema.LayerDeleteFails | steward/__init__.py:231-232 | a class body with a `del` statement raises |
| Schema.LayerBindsOnce | steward/__init__.py:19-21 | a body that succeeds binds only fields that were unbound, each once, and records each binding |
| Schema.LayerRebindFails | steward/__init__.py:19-21 | a body that binds a field already named elsewhere raises |
| Schema.DeclarePreservesWF | steward/__init__.py:240-243 | defining a class keeps every class well formed: distinct field names, `_names_` equal to the key set of `_fields_`, bases before the class, and each field bound to its key |
| Schema.DeclareFields | steward/__init__.py:217-243 | the new `_fields_` has an own field wherever the body binds one and otherwise the last base's; `_names_` is the own names together with the inherited ones |
| Schema.DeclareDeleteFails | steward/__init__.py:231-232 | a class whose body deletes a name is never defined |
| Schema.DeclareBindsOnce | steward/__init__.py:19-21 | `set_name` at most once: binding an already-named field fails the definition, and a definition that succeeds binds each of its fields |
| Schema.DeclareSubclass | steward/__init__.py:240-241 | instances of the new class are instances of each of its record-type bases |
| Schema.IsInstanceStable | steward/__init__.py:66 | a record's class never changes, so `isinstance` holds for the rest of its life |
| Schema.IsSubclass | steward/__init__.py:222 | `issubclass` only reaches classes defined earlier: a superclass never has a larger id than its subclass |
| Schema.IsSubclassTrans | steward/__init__.py:222 | `issubclass` is transitive |
| Schema.IsInstance | steward/__init__.py:66 | `isinstance` holds only for records, always for a record of the class itself, and never for a class defined after the record's own |
| Schema.IsInstanceUp | steward/__init__.py:57 | an instance of a class is an instance of each of its superclasses |
| Schema.CompField | steward/__init__.py:54-61 | a nested-object field is created exactly when its default is absent, `None` or an instance of the field's type |
| Slots.BackingDict | steward/__init__.py:28 | the backing dict found for a record is a plain dict and is the record's `_plain_` itself |
| Slots.Getter | steward/__init__.py:35-41 | a getter that resolves allocates only new objects and returns a value that its plain value encodes; a present raw value is persisted unchanged; a failing getter changes nothing |
| Slots.Setter | steward/__init__.py:63-69 | a setter refuses exactly collection fields and non-`None`, non-instance values of a nested field; an accepted value is cached as itself and its plain value encodes it |
| Slots.GetSlot | steward/__init__.py:23-33 | a cache hit returns the cached value and changes nothing; a miss writes the same name into both stores and leaves every other object as it was; a present raw value leaves the plain dict untouched |
| Slots.SetSlot | steward/__init__.py:43-48 | an assignment succeeds exactly when the setter accepts and `_plain_` is a dict; it writes one name into both stores, the two agree, and nothing else changes |
| Slots.GetSlotResolves | steward/__init__.py:71-81 | a miss raises exactly when the slot cannot resolve; an absent value gives the default or "not initialized"; a nested raw value decodes to a new record over that very sub-tree, and `None` stays `None` |
| Slots.CompFieldResolves | steward/__init__.py:54-61 | a nested-object field that `FieldComp.__init__` accepted never fails a later read for want of a `_plain_`: an absent slot fails only as "not initialized" (no default), and otherwise only over a `_plain_` that is not a dict |
| Slots.SharedDefault | steward/__init__.py:73-77 | a nested default is shared: the record caches that very object and persists its `_plain_` |
| Slots.WriteThroughChild | steward/__init__.py:63-69 | a parent whose plain tree holds a child's `_plain_` sees a write made through the child, because the tree is shared by reference |
| Slots.GetKeepsPlain | steward/__init__.py:28-32 | reading a slot whose raw value is present keeps the record's plain tree as it was |
| Dicts.GetItem | steward/__init__.py:105-113 | a memoized element is returned as is; otherwise the entry must be a dict and is decoded into a new record over that very entry and memoized; an absent key is a KeyError |
| Dicts.Len | steward/__init__.py:99-100 | `len(proxy)` is the number of keys iteration yields |
| Dicts.Iter | steward/__init__.py:102-103 | on a coherent proxy, iteration yields exactly the keys a lookup does not refuse with KeyError |
| Dicts.SetItem | steward/__init__.py:115-118 | assignment is refused exactly for non-instances of the element type; otherwise the element is memoized and its `_plain_` stored under the key, and nothing else changes |
| Dicts.DelItem | steward/__init__.py:120-122 | deletion fails exactly for an absent key; otherwise the key leaves both the backing dict and the memo |
| Dicts.GetItemMemoized | steward/__init__.py:105-113 | a second lookup returns the identical record and changes nothing |
| Dicts.SetThenGet | steward/__init__.py:99-118 | an assigned element is what a lookup returns, its `_plain_` is the backing entry, and the length grows exactly when the key is new |
| Dicts.DelThenGet | steward/__init__.py:99-122 | a deleted key is a KeyError afterwards, the length drops by one and iteration loses that key |
| Dicts.GetKeepsCoherent | steward/__init__.py:105-113 | a lookup keeps every memoized element a record whose `_plain_` is the backing entry under its key |
| Dicts.SetKeepsCoherent | steward/__init__.py:115-118 | an assignment keeps the memo aligned with the backing dict |
| Dicts.DelKeepsCoherent | steward/__init__.py:120-122 | a deletion keeps the memo aligned with the backing dict |
| Dicts.DictSlotCannotBeSet | steward/__init__.py:130-131 | assigning a `FieldDict` slot raises and changes nothing |
| Dicts.DictSlotGet | steward/__init__.py:133-137 | reading a `FieldDict` slot raises exactly for a raw value that is not a dict; otherwise it wraps the raw dict (a new empty one, persisted, when absent) in a new proxy over that very dict |
| Lists.DecodeAll | steward/__init__.py:161 | decoding a plain list gives one new record per item, in order, each over that very item |
| Lists.Materialise | steward/__init__.py:165-167 | the first touch decodes the whole list into a shadow in lockstep with it; a materialised proxy is left as it is |
| Lists.Len | steward/__init__.py:155-156 | `len(proxy)` follows the backing list, which on a proxy in lockstep has the shadow's length |
| Lists.MaterialisedLockstep | steward/__init__.py:165-167 | a materialised coherent proxy is in lockstep |
| Lists.GetItem | steward/__init__.py:164-168 | indexing succeeds exactly for a Python index in range and returns a record over the plain item at that position |
| Lists.Iter | steward/__init__.py:158-162 | iteration yields one record per plain item, in order, each over that item |
| Lists.PlainForSet | steward/__init__.py:175-181 | the plain value for an assignment is the value's `_plain_` (AttributeError without one); a non-empty sequence raises NameError; an empty sequence gives a new empty list |
| Lists.SeqLen | steward/__init__.py:158-162 | `for i in val` over a list proxy visits as many elements as `iter(val)` yields: the shadow once there, else the backing list |
| Lists.StaleShadowCounts | steward/__init__.py:158-181 | a materialised list proxy with an empty shadow is assigned as an empty sequence, whatever its backing list now holds |
| Lists.SetItemAsWritten | steward/__init__.py:170-182 | element assignment as written keeps every identity and the proxy a list proxy, whatever it raises, and no object other than the proxy and its backing list changes |
| Lists.SetItem | steward/__init__.py:170-182 | with the type check first, a non-instance raises and changes nothing, and no object other than the proxy and its backing list changes |
| Lists.DelItem | steward/__init__.py:184-189 | deletion fails exactly for an index out of range of the list or of its shadow, and no object other than the proxy and its backing list changes |
| Lists.Insert | steward/__init__.py:191-197 | insertion is refused exactly for non-instances; otherwise the value's `_plain_` goes into the backing list at the position `list.insert` picks, and no object other than the proxy and its backing list changes |
| Lists.Append | steward/__init__.py:191-197 | appending an instance adds its `_plain_` at the end of the backing list, which grows by one, and no object other than the proxy and its backing list changes |
| Lists.InsertKeepsLockstep | steward/__init__.py:191-197 | insertion puts the value into the shadow at the same position and keeps the proxy in lockstep |
| Lists.AppendKeepsLockstep | steward/__init__.py:191-197 | appending extends the shadow with the value and keeps the proxy in lockstep |
| Lists.DelItemKeepsLockstep | steward/__init__.py:184-189 | deletion succeeds exactly for an index in range, removes the same position from both lists and keeps lockstep; an index out of range changes nothing beyond materialising |
| Lists.SetItemAsWrittenPlain | steward/__init__.py:170-182 | assigning a non-sequence value that has a `_plain_` replaces the same position in the shadow and the backing list |
| Lists.SetItemKeepsLockstep | steward/__init__.py:170-182 | with the type check first, assignment succeeds exactly for an instance at an index in range, replaces the same position in both lists and keeps lockstep; otherwise the proxy stays coherent |
| Lists.SetItemAsWrittenBreaksLockstep | steward/__init__.py:174-181 | as written, assigning `None` or a number raises AttributeError after the shadow changed: the backing list is unchanged, the proxy is out of lockstep and indexing returns the refused value |
| Lists.SetItemSequenceAsWritten | steward/__init__.py:174-179 | as written, assigning a non-empty sequence raises NameError after the shadow changed, leaving the proxy out of lockstep |
| Lists.SetItemEmptySequenceAsWritten | steward/__init__.py:174-182 | as written, assigning an empty sequence succeeds but stores a new empty list in the backing list while the shadow holds the sequence, out of lockstep |
| Lists.ListSlotCannotBeSet | steward/__init__.py:205-206 | assigning a `FieldList` slot raises and changes nothing |
| Lists.ListSlotGet | steward/__init__.py:208-214 | reading a `FieldList` slot raises exactly for a raw value that is not a list; otherwise it wraps the raw list (a new empty one, persisted, when absent) in a new unmaterialised proxy over that very list |
| Records.FromPlain | steward/__init__.py:275-279 | `from_plain` makes a new record of the class that adopts the given value and has decoded nothing |
| Records.AsPlain | steward/__init__.py:281-282 | `as_plain` is the record's `_plain_` |
| Records.PlainRoundTrip | steward/__init__.py:275-282 | `from_plain(v).as_plain()` is `v` itself |
| Records.AsPlainStable | steward/__init__.py:281-282 | `as_plain` returns the same object for the record's whole life |
| Records.RereadFromPlain | steward/__init__.py:275-282 | a record adopting another record's `_plain_` reads back the same simple values, and nested records over the same sub-trees |
| Records.FromPlainNotMapping | steward/__init__.py:276-279 | `from_plain` checks nothing: over a value that is neither a dict nor a dict proxy every slot read raises, and a slot write raises after caching the value |
| Records.Extras | steward/__init__.py:251 | the extra names are exactly the keywords that are not declared |
| Records.Omitted | steward/__init__.py:260 | the omitted names are exactly the declared names that no keyword supplies |
| Records.Unresolved | steward/__init__.py:265-270 | the reported names are exactly the omitted names whose slot cannot resolve without a value |
| Records.SetAll | steward/__init__.py:257-259 | the assignment loop keeps every identity, raises only a setter's error, and on success touches only the new record and its plain dict |
| Records.ResolveAll | steward/__init__.py:265-270 | the check of omitted names reports only names it was given and changes only the new record and its plain dict |
| Records.Fresh | steward/__init__.py:249 | construction starts from a new record of the class over a new empty plain dict |
| Records.Populate | steward/__init__.py:255-273 | construction with declared keywords returns a new record of the class and leaves every existing object unchanged; on error the caller's world is returned |
| Records.Construct | steward/__init__.py:248-273 | `cls(**kwargs)` returns a new record of the class and leaves every existing object unchanged; on error the caller's world is returned |
| Records.ConstructExtra | steward/__init__.py:250-254 | "Extra params" is raised exactly when some keyword is not declared, and names each undeclared keyword once, in sorted order |
| Records.PopulateOutcome | steward/__init__.py:255-273 | with declared keywords, construction succeeds exactly when every keyword is assignable and nothing omitted is unresolvable; otherwise it raises a refused keyword's setter error or "Missing params" with the sorted unresolvable names |
| Records.SetAllOnFresh | steward/__init__.py:257-259 | on the fresh record the assignment loop succeeds exactly when every keyword is assignable, and otherwise raises one keyword's setter error |
| Records.ResolveOnFresh | steward/__init__.py:263-270 | after the assignment loop, the check of omitted names never raises and reports exactly the unresolvable ones |
| Records.OmittedStillAbsent | steward/__init__.py:257-260 | after the assignment loop each keyword's slot is filled with its value, each omitted slot is absent from both stores, and the plain dict holds only keyword names |
| Records.SetAllSettable | steward/__init__.py:257-259 | the assignment loop succeeds exactly when every keyword's setter accepts |
| Records.SetAllFills | steward/__init__.py:257-259 | the assignment loop fills each keyword's slot with its value and touches no other slot |
| Records.ResolveAllReports | steward/__init__.py:265-270 | reading the omitted slots of a fresh record never raises and reports exactly the unresolvable names |
| Records.ResolveAllFrame | steward/__init__.py:265-270 | reading the omitted slots changes no other slot |
| Records.ResolveAllFills | steward/__init__.py:265-270 | each omitted slot that resolves is filled: a simple or nested one caches its default itself, and a `FieldDict`/`FieldList` one a new proxy over a new empty container with nothing decoded |
| Records.MissingNames | steward/__init__.py:260-273 | the "Missing params" names are sorted, unique, and exactly the omitted declared names that cannot resolve |
| Records.ConstructSucceeds | steward/__init__.py:248-273 | construction succeeds exactly when every keyword is declared and assignable and every omitted slot can resolve without a value |
| Records.ConstructSetError | steward/__init__.py:257-259 | a refused keyword makes construction raise that keyword's setter error |
| Records.ConstructMissing | steward/__init__.py:260-273 | "Missing params" is raised only when every keyword is declared and assignable, and names exactly the unresolvable omitted slots, once each, sorted |
| Records.ConstructFills | steward/__init__.py:248-273 | a constructed record has every declared slot filled in both stores, each keyword's slot holding its value, each omitted slot its default (a new empty proxy for a collection slot), and a new plain dict holding exactly the declared names |
| Records.ConstructEmptyView | steward/__init__.py:265-270 | an omitted `FieldDict`/`FieldList` slot of a new record holds a new proxy of the element type over a new empty container |
| Records.ConstructSharesNested | steward/__init__.py:257-259 | a nested record passed as a keyword is shared: the new plain dict holds that record's very `_plain_` |
| Scenarios.BasicClass | tests/test_basic.py:11-13 | class A with fields a, b gets `_names_` {a, b} and `_fields_` in declaration order |
| Scenarios.BasicConstructOk | tests/test_basic.py:15-18 | `A(a=1, b='b')` reads back 1 and 'b' |
| Scenarios.BasicConstructExtra | tests/test_basic.py:20-21 | `A(z=1)` raises "Extra params: 'z'" |
| Scenarios.SingleMissing | steward/__init__.py:271-273 | a single unresolvable omitted slot x raises "Missing params: 'x'" |
| Scenarios.BasicConstructMissing | tests/test_basic.py:23-24 | `A(a=1)` raises "Missing params: 'b'" |
| Scenarios.InheritNames | tests/test_inheritance.py:15-19 | A's `_names_` is {a}; its subclass B's is {a, b}; every B is an A |
| Scenarios.InheritARegistry | tests/test_inheritance.py:6-7 | defining A adds class 1 with the single field a and binds field object 0 to the name a |
| Scenarios.InheritBRegistry | tests/test_inheritance.py:10-11 | defining B on A adds class 2 with base A, fields a then b, and names {a, b} |
| Scenarios.InheritFields | steward/__init__.py:218-229 | B's `_fields_` is A's inherited field a followed by its own field b |
| Scenarios.InheritConstructOk | tests/test_inheritance.py:21-24 | `B(a=1, b=2)` reads back 1 for the inherited slot and 2 for the own slot |
| Scenarios.OmittedDictEmpty | tests/test_dict.py:14-16 | `B()` with a `FieldDict` slot `a` gives `len(r.a) == 0`, with nothing decoded |
| Scenarios.OmittedListEmpty | tests/test_list.py:15-17 | `B()` with a `FieldList` slot `a` gives `len(r.a) == 0`, with the shadow not yet built |

## Left out

- Python's metaclass protocol (`__prepare__`, `type.__init__`) is replaced by
  the explicit builder `Schema.DeclareClass`. Ordinary class attributes
  other than fields are modelled only as bindings that do not touch
  `_fields_`.
- `assert name` in `__get__`/`__set__` is not modelled. Every slot the
  model reads or writes belongs to a declared field, which is always named.
- The tuple-to-list coercion in the `FieldList` getter
  (steward/__init__.py:211-212) is left out. The model has no tuple values,
  so a raw tuple is one of the non-list values that raise.
- Slice indices for `ListProxy` get, set and delete are left out: only
  integer indices are modelled.
- Lists.SetItemAsWritten: in the sequence branch, iterating a `ListProxy`
  value would materialise that other proxy's shadow before the NameError.
  The model leaves that proxy unmaterialised.
- Lists.SetItem does not model element-wise assignment of a sequence: the
  broken branch gives no evidence of what it should store, so a sequence is
  refused like any other non-instance.
- Lists.SetItemAsWritten and Lists.SetItem hold no contract of their own
  about the items they write. That is stated by the lockstep lemmas
  (`Lists.SetItemKeepsLockstep`, `Lists.SetItemAsWrittenPlain` and the
  as-written counterexamples). Their own contracts state the frame: every
  object other than the proxy and its backing list is left as it was.
- Lists.DelItem states when it fails and the same frame. Its effect on both
  lists is stated by `Lists.DelItemKeepsLockstep` for coherent proxies.
- `DictProxy.__delitem__` drops the memo entry with `pop(key, None)`, which
  never raises. The model drops it in the same step as the backing entry.
- `Component.__init__` reads the omitted names in set-iteration order. The
  model reads them in declaration order. Each read touches only its own slot
  (`Records.ResolveAllFrame`) and the report is sorted
  (`Text.SortDeterministic`), so the outcome is the same up to the names of
  the fresh objects the reads allocate. No lemma states that equivalence
  for two whole orders.
- Plain dicts are modelled as unordered maps. `DictProxy` iteration order
  and the key order of plain trees are not modelled; only `_fields_` keeps
  its order.
- Records.ConstructFills and the other construction lemmas assume that
  keyword values and field defaults are objects already in the store
  (`ArgsAllocated`, `DefaultsAllocated`). Python values always are.
- Records.Construct: on a failed construction the model returns the
  caller's world. The objects allocated before the error are unreachable
  garbage in Python too.
- The message text of the source's `TypeError`, `KeyError`, `IndexError`,
  `NameError` and `AssertionError` is left out: the kinds are modelled and
  `Heap.Message` gives only the texts the source formats itself.
- `NotAMapping` stands for both failures on a `_plain_` that is not a
  mapping: an AttributeError from `.get` and a TypeError from item
  assignment.
- A `DictProxy` used as a record's `_plain_` (as in `A.from_plain(b.a)` for
  a `FieldDict` slot `b.a`) is modelled as not a mapping: its slot reads and
  writes raise `NotAMapping`. In Python they go through the proxy's
  `MutableMapping` methods, which decode entries on the way. For this reason
  Records.FromPlainNotMapping excludes a proxy `_plain_`.
- Schema.CompField reports `TypeMismatch` for a wrong-typed default. The
  source's error path raises AttributeError first, as noted above.
- Python `assert` statements are modelled as the errors they raise
  (`NotADict`, `NotAList`, `NotAnInstance`, `AlreadyBound`), not as
  preconditions.
- `Forward`, `__repr__`, and the `as_dict`/`from_dict` names used by some
  tests are not part of this model: the source defines none of them.
- `DictProxy.as_plain` and `ListProxy.as_plain` return the proxy's backing
  container. In the model that container is the proxy's `dict`/`list`
  field.

## Findings

| source | as written | input that shows it | evidently intended | confidence | as-written member | corrected member |
|---|---|---|---|---|---|---|
| steward/__init__.py:170-182 | `ListProxy.__setitem__` stores `val` in the shadow before it reads `val._plain_` | `proxy[0] = None` on a materialised one-element proxy: AttributeError is raised, the shadow holds `None`, and the backing list still holds the old item | type-check `val` (as `insert` does) before changing either list, so a refused value changes nothing | not executed | Lists.SetItemAsWritten (Lists.SetItemAsWrittenBreaksLockstep) | Lists.SetItem (Lists.SetItemKeepsLockstep) |
| steward/__init__.py:178 | the sequence branch calls `isinstace`, a name that is not defined | `proxy[0] = 'ab'`: NameError after the shadow already holds `'ab'`; `proxy[0] = ''` succeeds with a new empty list in the backing list | refuse a value before changing either list, and keep the shadow and the backing list paired; the corrected member drops the sequence branch, so a sequence is refused like any other non-instance and nothing changes | not executed | Lists.SetItemAsWritten (Lists.SetItemSequenceAsWritten) | Lists.SetItem (Lists.SetItemKeepsLockstep) |

=== FILE: dicts.dfy ===
/**
 * The keyed collection: `FieldDict` and its `DictProxy`, a live mapping view
 * over a plain dict of element trees, with a memo (`__objects`) of the
 * element records decoded so far.
 */
module Dicts {
  import opened Wrappers
  import opened Heap
  import opened Schema
  import opened Slots

  /** A `DictProxy` over a plain dict (the only kind `FieldDict` builds). */
  predicate IsDictProxy(w: World, p: Ref)
  {
    p in w.heap && w.heap[p].DictProxy? && IsDict(w, w.heap[p].dict)
  }

  /** The proxy's `_plain_` dict contents. */
  function Backing(w: World, p: Ref): map<Atom, Value>
    requires IsDictProxy(w, p)
  {
    w.heap[w.heap[p].dict].entries
  }

  /** The memo of decoded elements. */
  function Memo(w: World, p: Ref): map<Atom, Ref>
    requires IsDictProxy(w, p)
  {
    w.heap[p].objects
  }

  /** `len(proxy)`: follows the backing dict, so it counts the keys
      iteration yields. */
  function Len(w: World, p: Ref): (n: nat)
    requires IsDictProxy(w, p)
    ensures n == |Iter(w, p)|
  {
    |Backing(w, p)|
  }

  /** `iter(proxy)`: the backing dict's keys. On a coherent proxy these are
      exactly the keys a lookup does not refuse with KeyError. */
  function Iter(w: World, p: Ref): (ks: set<Atom>)
    requires IsDictProxy(w, p)
    ensures WF(w) && Coherent(w, p) ==> forall k :: k in ks <==> GetItem(w, p, k) != Err(w, KeyMissing(k))
  {
    Backing(w, p).Keys
  }

  /** Every memoized element is a record whose `_plain_` is the backing
      dict's entry under the same key. */
  predicate Coherent(w: World, p: Ref)
    requires IsDictProxy(w, p)
  {
    forall k :: k in Memo(w, p) ==>
      && k in Backing(w, p)
      && IsRecord(w, Memo(w, p)[k])
      && w.heap[Memo(w, p)[k]].backing == Backing(w, p)[k]
  }

  /** `proxy[key]`: a memoized element is returned as is; otherwise the
      backing entry (which must be a dict) is decoded into a fresh record over
      that very entry and memoized. */
  function GetItem(w: World, p: Ref, key: Atom): (o: Outcome<Ref>)
    requires WF(w) && IsDictProxy(w, p)
    ensures Extends(w, o.w)
    ensures o.Err? ==> o.w == w
    ensures key in Memo(w, p) ==> o == Ok(w, Memo(w, p)[key])
    ensures key !in Memo(w, p) ==>
              (o.Ok? <==> key in Backing(w, p) && Backing(w, p)[key].Obj? && IsDict(w, Backing(w, p)[key].ref))
    ensures key !in Memo(w, p) && key !in Backing(w, p) ==> o == Err(w, KeyMissing(key))
    ensures key !in Memo(w, p) && o.Ok? ==>
              && o.value !in w.heap && o.value in o.w.heap
              && o.w.heap[o.value] == Record(w.heap[p].elem, Backing(w, p)[key], map[])
              && IsDictProxy(o.w, p)
              && Memo(o.w, p) == Memo(w, p)[key := o.value]
              && Backing(o.w, p) == Backing(w, p)
              && (forall r :: r in w.heap && r != p ==> o.w.heap[r] == w.heap[r])
  {
    var px := w.heap[p];
    if key in px.objects then Ok(w, px.objects[key])
    else if key !in Backing(w, p) then Err(w, KeyMissing(key))
    else
      var item := Backing(w, p)[key];
      if !(item.Obj? && IsDict(w, item.ref)) then Err(w, NotADict)
      else
        var (w1, r) := Alloc(w, Record(px.elem, item, map[]));
        Ok(Store(w1, p, px.(objects := px.objects[key := r])), r)
  }

  /** `proxy[key] = val`: `val` must be an element-type instance; it is
      memoized and its `_plain_` is stored in the backing dict. */
  function SetItem(reg: Registry, w: World, p: Ref, key: Atom, val: Value): (o: Outcome<()>)
    requires WF(w) && IsDictProxy(w, p)
    ensures Extends(w, o.w)
    ensures o.Err? <==> !IsInstance(reg, w, val, w.heap[p].elem)
    ensures o.Err? ==> o == Err(w, NotAnInstance(w.heap[p].elem))
    ensures o.Ok? ==>
              && IsDictProxy(o.w, p)
              && Memo(o.w, p) == Memo(w, p)[key := val.ref]
              && Backing(o.w, p) == Backing(w, p)[key := w.heap[val.ref].backing]
              && (forall r :: r in w.heap && r != p && r != w.heap[p].dict ==> o.w.heap[r] == w.heap[r])
              && o.w.heap.Keys == w.heap.Keys
  {
    var px := w.heap[p];
    if !IsInstance(reg, w, val, px.elem) then Err(w, NotAnInstance(px.elem))
    else
      var w1 := Store(w, p, px.(objects := px.objects[key := val.ref]));
      Ok(Store(w1, px.dict, DictNode(Backing(w, p)[key := w.heap[val.ref].backing])), ())
  }

  /** `del proxy[key]`: removes the key from the backing dict (KeyError when
      absent) and from the memo. */
  function DelItem(w: World, p: Ref, key: Atom): (o: Outcome<()>)
    requires WF(w) && IsDictProxy(w, p)
    ensures Extends(w, o.w)
    ensures o.Err? <==> key !in Backing(w, p)
    ensures o.Err? ==> o == Err(w, KeyMissing(key))
    ensures o.Ok? ==>
              && IsDictProxy(o.w, p)
              && Backing(o.w, p) == Backing(w, p) - {key}
              && Memo(o.w, p) == Memo(w, p) - {key}
              && (forall r :: r in w.heap && r != p && r != w.heap[p].dict ==> o.w.heap[r] == w.heap[r])
              && o.w.heap.Keys == w.heap.Keys
  {
    var px := w.heap[p];
    if key !in Backing(w, p) then Err(w, KeyMissing(key))
    else
      var w1 := Store(w, px.dict, DictNode(Backing(w, p) - {key}));
      Ok(Store(w1, p, px.(objects := px.objects - {key})), ())
  }

  // ---------------------------------------------------------------------
  // Properties
  // ---------------------------------------------------------------------

  /** Decoding is done once: a second lookup returns the identical record and
      changes nothing. */
  lemma GetItemMemoized(w: World, p: Ref, key: Atom)
    requires WF(w) && IsDictProxy(w, p) && GetItem(w, p, key).Ok?
    ensures var o := GetItem(w, p, key);
            IsDictProxy(o.w, p) && GetItem(o.w, p, key) == Ok(o.w, o.value)
  {
  }

  /** An assigned element is the one later looked up, its `_plain_` is the
      backing entry, and the length grows exactly when the key is new. */
  lemma SetThenGet(reg: Registry, w: World, p: Ref, key: Atom, val: Value)
    requires WF(w) && IsDictProxy(w, p) && SetItem(reg, w, p, key, val).Ok?
    ensures var w' := SetItem(reg, w, p, key, val).w;
            && GetItem(w', p, key) == Ok(w', val.ref)
            && Backing(w', p)[key] == w'.heap[val.ref].backing
            && Len(w', p) == if key in Backing(w, p) then Len(w, p) else Len(w, p) + 1
  {
  }

  /** A deleted key is gone from both the backing dict and the memo; the
      length drops by one. */
  lemma DelThenGet(w: World, p: Ref, key: Atom)
    requires WF(w) && IsDictProxy(w, p) && DelItem(w, p, key).Ok?
    ensures var w' := DelItem(w, p, key).w;
            && GetItem(w', p, key) == Err(w', KeyMissing(key))
            && Len(w', p) == Len(w, p) - 1
            && Iter(w', p) == Iter(w, p) - {key}
  {
  }

  /** A lookup keeps the memo aligned with the backing dict. */
  lemma GetKeepsCoherent(w: World, p: Ref, key: Atom)
    requires WF(w) && IsDictProxy(w, p) && Coherent(w, p)
    ensures var o := GetItem(w, p, key);
            o.Ok? ==> IsDictProxy(o.w, p) && Coherent(o.w, p)
  {
    var g := GetItem(w, p, key);
    if g.Ok? && key !in Memo(w, p) {
      forall k | k in Memo(g.w, p)
        ensures k in Backing(g.w, p) && IsRecord(g.w, Memo(g.w, p)[k])
                && g.w.heap[Memo(g.w, p)[k]].backing == Backing(g.w, p)[k]
      {
        if k != key {
          assert Memo(g.w, p)[k] == Memo(w, p)[k];
          assert Memo(w, p)[k] in w.heap;
        }
      }
    }
  }

  /** An assignment keeps the memo aligned with the backing dict. */
  lemma SetKeepsCoherent(reg: Registry, w: World, p: Ref, key: Atom, val: Value)
    requires WF(w) && IsDictProxy(w, p) && Coherent(w, p)
    ensures var o := SetItem(reg, w, p, key, val);
            o.Ok? ==> IsDictProxy(o.w, p) && Coherent(o.w, p)
  {
    var s := SetItem(reg, w, p, key, val);
    if s.Ok? {
      forall k | k in Memo(s.w, p)
        ensures k in Backing(s.w, p) && IsRecord(s.w, Memo(s.w, p)[k])
                && s.w.heap[Memo(s.w, p)[k]].backing == Backing(s.w, p)[k]
      {
        var r := Memo(s.w, p)[k];
        if k != key {
          assert r == Memo(w, p)[k] && IsRecord(w, r);
        }
        assert r in w.heap && w.heap[r].Record?;
        assert Stable(w.heap[r], s.w.heap[r]);
      }
    }
  }

  /** A deletion keeps the memo aligned with the backing dict. */
  lemma DelKeepsCoherent(w: World, p: Ref, key: Atom)
    requires WF(w) && IsDictProxy(w, p) && Coherent(w, p)
    ensures var o := DelItem(w, p, key);
            o.Ok? ==> IsDictProxy(o.w, p) && Coherent(o.w, p)
  {
    var d := DelItem(w, p, key);
    if d.Ok? {
      forall k | k in Memo(d.w, p)
        ensures k in Backing(d.w, p) && IsRecord(d.w, Memo(d.w, p)[k])
                && d.w.heap[Memo(d.w, p)[k]].backing == Backing(d.w, p)[k]
      {
        var r := Memo(w, p)[k];
        assert Memo(d.w, p)[k] == r && IsRecord(w, r);
        assert Stable(w.heap[r], d.w.heap[r]);
      }
    }
  }

  /** A `FieldDict` slot cannot be assigned. */
  lemma DictSlotCannotBeSet(reg: Registry, w: World, inst: Ref, name: string, f: FieldDecl, v: Value)
    requires WF(w) && IsRecord(w, inst) && f.kind.DictOf?
    ensures SetSlot(reg, w, inst, name, f, v) == Err(w, CannotSet("FieldDict"))
  {
  }

  /** Reading a `FieldDict` slot wraps the raw dict in a proxy whose `_plain_`
      is that very dict; an absent raw value becomes a fresh empty dict that
      is persisted into the record's plain tree. */
  lemma DictSlotGet(w: World, inst: Ref, name: string, f: FieldDecl)
    requires WF(w) && IsRecord(w, inst) && f.kind.DictOf?
    requires name !in w.heap[inst].cache && BackingDict(w, inst).Some?
    ensures var d := BackingDict(w, inst).value;
            var raw := Raw(w, d, name);
            var o := GetSlot(w, inst, name, f);
            && (o.Err? <==> raw.Some? && !(raw.value.Obj? && IsDict(w, raw.value.ref)))
            && (o.Ok? ==>
                  && o.value.Obj? && o.value.ref !in w.heap && IsDictProxy(o.w, o.value.ref)
                  && o.w.heap[o.value.ref].elem == f.kind.elem
                  && Memo(o.w, o.value.ref) == map[]
                  && o.w.heap[d].entries[Str(name)] == Obj(o.w.heap[o.value.ref].dict)
                  && (raw.Some? ==> raw.value == Obj(o.w.heap[o.value.ref].dict))
                  && (raw.None? ==> o.w.heap[o.value.ref].dict !in w.heap && Backing(o.w, o.value.ref) == map[]))
  {
  }
}

=== FILE: heap.dfy ===
/**
 * The object store every operation works on. Python's plain data (dicts and
 * lists) and its typed objects (records, collection proxies) are all heap
 * objects with an identity; identity is a `Ref`, so "the child's plain tree IS
 * the parent's sub-tree" is equality of refs, never structural equality.
 */
module Heap {
  import opened Wrappers
  import Text

  type Ref = nat
  type ClassId = nat

  /** A plain scalar (opaque to the mapping layer) and a dict key. */
  datatype Atom = Str(s: string) | Num(n: int)

  /** A Python value: `None`, a scalar, or a reference to a heap object. */
  datatype Value = Null | Prim(atom: Atom) | Obj(ref: Ref)

  datatype HeapObj =
    /** A plain `dict`. */
    | DictNode(entries: map<Atom, Value>)
    /** A plain `list`. */
    | ListNode(items: seq<Value>)
    /** A `Component` instance: `_plain_` (`backing`) and its decode cache `__dict__`. */
    | Record(cls: ClassId, backing: Value, cache: map<string, Value>)
    /** A `DictProxy`: element type, backing dict and the memo of decoded elements. */
    | DictProxy(elem: ClassId, dict: Ref, objects: map<Atom, Ref>)
    /** A `ListProxy`: element type, backing list and the shadow (`None` until first touch). */
    | ListProxy(elem: ClassId, list: Ref, shadow: Option<seq<Value>>)

  datatype World = World(heap: map<Ref, HeapObj>, next: nat)

  /** Every allocated ref is below the allocation counter, so `next` is fresh. */
  predicate WF(w: World)
  {
    forall r :: r in w.heap ==> r < w.next
  }

  /** Allocates a new heap object under a fresh ref. */
  function Alloc(w: World, o: HeapObj): (res: (World, Ref))
    requires WF(w)
    ensures res.1 !in w.heap
    ensures res.0.heap == w.heap[res.1 := o]
    ensures WF(res.0)
  {
    (World(w.heap[w.next := o], w.next + 1), w.next)
  }

  /** Overwrites the object under an existing ref. */
  function Store(w: World, r: Ref, o: HeapObj): World
  {
    w.(heap := w.heap[r := o])
  }

  predicate IsRecord(w: World, r: Ref)
  {
    r in w.heap && w.heap[r].Record?
  }

  predicate IsDict(w: World, r: Ref)
  {
    r in w.heap && w.heap[r].DictNode?
  }

  predicate IsList(w: World, r: Ref)
  {
    r in w.heap && w.heap[r].ListNode?
  }

  /** `v._plain_`: the backing plain value of a record or proxy; `None` when
      `v` has no such attribute (Python raises AttributeError). */
  function PlainOf(w: World, v: Value): Option<Value>
  {
    if v.Obj? && v.ref in w.heap then
      match w.heap[v.ref]
      case Record(_, b, _) => Some(b)
      case DictProxy(_, d, _) => Some(Obj(d))
      case ListProxy(_, l, _) => Some(Obj(l))
      case _ => None
    else None
  }

  /** The identity-carrying part of an object, which no operation ever changes:
      a record's `_plain_`, a proxy's `_plain_` and element type, a node's kind. */
  predicate Stable(o: HeapObj, o': HeapObj)
  {
    match o
    case DictNode(_) => o'.DictNode?
    case ListNode(_) => o'.ListNode?
    case Record(c, b, _) => o'.Record? && o'.cls == c && o'.backing == b
    case DictProxy(e, d, _) => o'.DictProxy? && o'.elem == e && o'.dict == d
    case ListProxy(e, l, _) => o'.ListProxy? && o'.elem == e && o'.list == l
  }

  /** `w'` is a later state of `w`: nothing is freed and no identity changes. */
  predicate Extends(w: World, w': World)
  {
    && WF(w')
    && w.heap.Keys <= w'.heap.Keys
    && (forall r :: r in w.heap ==> Stable(w.heap[r], w'.heap[r]))
  }

  /** `w'` differs from `w` only by freshly allocated objects. */
  predicate Grows(w: World, w': World)
  {
    && WF(w')
    && w.heap.Keys <= w'.heap.Keys
    && (forall r :: r in w.heap ==> w'.heap[r] == w.heap[r])
  }

  lemma StableRefl(o: HeapObj)
    ensures Stable(o, o)
  {
  }

  lemma GrowsExtends(w: World, w': World)
    requires Grows(w, w')
    ensures Extends(w, w')
  {
    forall r | r in w.heap ensures Stable(w.heap[r], w'.heap[r]) {
      StableRefl(w.heap[r]);
    }
  }

  /** Overwriting an object by one of the same identity is a later state. */
  lemma StoreExtends(w: World, r: Ref, o: HeapObj)
    requires WF(w) && r in w.heap && Stable(w.heap[r], o)
    ensures Extends(w, Store(w, r, o))
    ensures forall q :: q in w.heap && q != r ==> Store(w, r, o).heap[q] == w.heap[q]
  {
    forall q | q in w.heap && q != r ensures Stable(w.heap[q], Store(w, r, o).heap[q]) {
      StableRefl(w.heap[q]);
    }
  }

  lemma ExtendsTrans(w1: World, w2: World, w3: World)
    requires Extends(w1, w2) && Extends(w2, w3)
    ensures Extends(w1, w3)
  {
  }

  lemma GrowsTrans(w1: World, w2: World, w3: World)
    requires Grows(w1, w2) && Grows(w2, w3)
    ensures Grows(w1, w3)
  {
  }

  /** `v._plain_` depends only on identity-carrying parts, so it survives every operation. */
  lemma PlainOfStable(w: World, w': World, v: Value)
    requires Extends(w, w')
    requires PlainOf(w, v).Some?
    ensures PlainOf(w', v) == PlainOf(w, v)
  {
  }

  /** The source's exceptions. */
  datatype Error =
    /** AttributeError "'<name>' is not initialized" of a slot getter. */
    | NotInitialized(name: string)
    /** AttributeError "FieldDict cannot be set" / "FieldList cannot be set". */
    | CannotSet(field: string)
    /** TypeError "an <type> is required, got <type>" of the nested-object setter. */
    | TypeMismatch(expected: ClassId)
    /** AttributeError: the value has no `_plain_`. */
    | NoPlain
    /** The record's `_plain_` is not a dict, so `.get`/item assignment fails on it. */
    | NotAMapping
    /** AssertionError `isinstance(plainval, dict)` / `isinstance(plainval, list)`. */
    | NotADict
    | NotAList
    /** AssertionError `isinstance(val, self.type)` of a collection proxy. */
    | NotAnInstance(expected: ClassId)
    /** KeyError of a dict lookup or deletion. */
    | KeyMissing(key: Atom)
    /** IndexError of a list access. */
    | IndexOutOfRange(index: int)
    /** Error "Extra params: '...'" of construction. */
    | ExtraParams(names: seq<string>)
    /** Error "Missing params: '...'" of construction. */
    | MissingParams(names: seq<string>)
    /** RuntimeError "Not allowed" of deleting from a class namespace. */
    | DeleteNotAllowed
    /** AssertionError of `set_name` on an already named field (carries the old name). */
    | AlreadyBound(previous: string)
    /** NameError: the code refers to a name that is not defined. */
    | NameUndefined(name: string)

  /** The errors the construction loop catches as `AttributeError`. */
  predicate IsAttributeError(e: Error)
  {
    e.NotInitialized? || e.CannotSet? || e.NoPlain? || e.NotAMapping?
  }

  /** The message text the source itself formats; `None` for Python's built-in texts. */
  function Message(e: Error): (r: Option<string>)
    ensures r.Some? <==> e.NotInitialized? || e.CannotSet? || e.ExtraParams? || e.MissingParams? || e.DeleteNotAllowed?
    ensures e.ExtraParams? && |e.names| == 1 ==> r == Some("Extra params: '" + e.names[0] + "'")
    ensures e.MissingParams? && |e.names| == 1 ==> r == Some("Missing params: '" + e.names[0] + "'")
  {
    match e
    case NotInitialized(n) => Some("'" + n + "' is not initialized")
    case CannotSet(f) => Some(f + " cannot be set")
    case ExtraParams(ns) => Some("Extra params: '" + Text.Join(ns, ", ") + "'")
    case MissingParams(ns) => Some("Missing params: '" + Text.Join(ns, ", ") + "'")
    case DeleteNotAllowed => Some("Not allowed")
    case _ => None
  }

  /** The new state and the returned value or raised error. The state is
      carried on failure too, for the operations that mutate before raising. */
  datatype Outcome<+T> = Ok(w: World, value: T) | Err(w: World, error: Error)

  /** Python's index into a list of length `n` (negatives count
      from the end); `None` is an IndexError. */
  function NormIndex(i: int, n: nat): (r: Option<nat>)
    ensures r.Some? <==> 0 <= i + n && i < n
    ensures r.Some? ==> r.value < n && r.value % n == i % n
  {
    if 0 <= i < n then Some(i) else if i < 0 && 0 <= i + n then Some(i + n) else None
  }

  /** The position `list.insert(i, x)` inserts at: negatives count from the
      end, and out-of-range positions clamp to the ends. */
  function InsertPos(i: int, n: nat): (r: nat)
    ensures r <= n
    ensures 0 <= i <= n ==> r == i
    ensures i < 0 && 0 <= i + n ==> r == i + n
    ensures i + n < 0 ==> r == 0
    ensures i > n ==> r == n
  {
    if i < 0 then (if i + n < 0 then 0 else i + n) else if i > n then n else i
  }
}

=== FILE: lists.dfy ===
/**
 * The ordered collection: `FieldList` and its `ListProxy`, a live sequence
 * view over a plain list of element trees. The first operation that needs an
 * element decodes the whole list into the shadow; from then on every
 * mutation updates the shadow and the backing list at the same index.
 */
module Lists {
  import opened Wrappers
  import opened Heap
  import opened Schema
  import opened Slots

  /** A `ListProxy` over a plain list (the only kind `FieldList` builds). */
  predicate IsListProxy(w: World, p: Ref)
  {
    p in w.heap && w.heap[p].ListProxy? && IsList(w, w.heap[p].list)
  }

  /** The proxy's `_plain_` list contents. */
  function Items(w: World, p: Ref): seq<Value>
    requires IsListProxy(w, p)
  {
    w.heap[w.heap[p].list].items
  }

  /** `len(proxy)`: follows the backing list, which a proxy in lockstep
      shares its length with the shadow that indexing and iteration use. */
  function Len(w: World, p: Ref): (n: nat)
    requires IsListProxy(w, p)
    ensures Lockstep(w, p) ==> n == |w.heap[p].shadow.value|
  {
    |Items(w, p)|
  }

  /** Decoded elements `s` pair off with plain items: as many of each, and
      element `i` a record whose `_plain_` is item `i`. */
  predicate Paired(w: World, s: seq<Value>, items: seq<Value>)
  {
    && |s| == |items|
    && forall i :: 0 <= i < |s| ==> s[i].Obj? && IsRecord(w, s[i].ref) && w.heap[s[i].ref].backing == items[i]
  }

  /** The lockstep invariant: the shadow is materialised and pairs off with
      the backing list. */
  predicate Lockstep(w: World, p: Ref)
    requires IsListProxy(w, p)
  {
    w.heap[p].shadow.Some? && Paired(w, w.heap[p].shadow.value, Items(w, p))
  }

  /** Not yet materialised, or in lockstep. */
  predicate Coherent(w: World, p: Ref)
    requires IsListProxy(w, p)
  {
    w.heap[p].shadow.None? || Lockstep(w, p)
  }

  /** `[t.from_plain(i) for i in plain]`: one fresh record per item, in order,
      each over that very item. */
  function DecodeAll(w: World, t: ClassId, items: seq<Value>): (res: (World, seq<Value>))
    requires WF(w)
    ensures Grows(w, res.0)
    ensures |res.1| == |items|
    ensures forall i :: 0 <= i < |items| ==>
              && res.1[i].Obj? && res.1[i].ref !in w.heap && res.1[i].ref in res.0.heap
              && res.0.heap[res.1[i].ref] == Record(t, items[i], map[])
    ensures forall r :: r in res.0.heap && r !in w.heap ==> res.0.heap[r].Record?
    decreases |items|
  {
    if |items| == 0 then (w, [])
    else
      var (w1, r) := Alloc(w, Record(t, items[0], map[]));
      var (w2, rest) := DecodeAll(w1, t, items[1..]);
      (w2, [Obj(r)] + rest)
  }

  /** The decode-on-first-touch step shared by every element operation. */
  function Materialise(w: World, p: Ref): (w': World)
    requires WF(w) && IsListProxy(w, p)
    ensures Extends(w, w') && IsListProxy(w', p)
    ensures w'.heap[p].shadow.Some? && w'.heap[p].list == w.heap[p].list
    ensures Items(w', p) == Items(w, p)
    ensures w.heap[p].shadow.Some? ==> w' == w
    ensures w.heap[p].shadow.None? ==> Lockstep(w', p)
    ensures forall r :: r in w.heap && r != p ==> w'.heap[r] == w.heap[r]
    ensures forall r :: r in w'.heap && r !in w.heap ==> w'.heap[r].Record?
  {
    var px := w.heap[p];
    if px.shadow.Some? then w
    else
      var (w1, s) := DecodeAll(w, px.elem, Items(w, p));
      var w2 := Store(w1, p, px.(shadow := Some(s)));
      assert Grows(w, w1);
      assert forall i :: 0 <= i < |s| ==> s[i].ref != p;
      GrowsExtends(w, w1);
      w2
  }

  /** A materialised coherent proxy is in lockstep. */
  lemma MaterialisedLockstep(w: World, p: Ref)
    requires WF(w) && IsListProxy(w, p) && Coherent(w, p)
    ensures Lockstep(Materialise(w, p), p)
  {
  }

  /** `proxy[index]` (Python indexing, negatives from the end). */
  function GetItem(w: World, p: Ref, index: int): (o: Outcome<Value>)
    requires WF(w) && IsListProxy(w, p)
    ensures o.w == Materialise(w, p)
    ensures Coherent(w, p) ==> (o.Ok? <==> NormIndex(index, Len(w, p)).Some?)
    ensures o.Err? ==> o.error == IndexOutOfRange(index)
    ensures Coherent(w, p) && o.Ok? ==>
              var i := NormIndex(index, Len(w, p)).value;
              o.value.Obj? && IsRecord(o.w, o.value.ref) && o.w.heap[o.value.ref].backing == Items(w, p)[i]
  {
    var w1 := Materialise(w, p);
    var s := w1.heap[p].shadow.value;
    match NormIndex(index, |s|)
    case None => Err(w1, IndexOutOfRange(index))
    case Some(i) => Ok(w1, s[i])
  }

  /** `iter(proxy)`: the materialised shadow. */
  function Iter(w: World, p: Ref): (res: (World, seq<Value>))
    requires WF(w) && IsListProxy(w, p)
    ensures res.0 == Materialise(w, p)
    ensures Coherent(w, p) ==>
              && |res.1| == Len(w, p)
              && forall i :: 0 <= i < |res.1| ==>
                   res.1[i].Obj? && IsRecord(res.0, res.1[i].ref) && res.0.heap[res.1[i].ref].backing == Items(w, p)[i]
  {
    var w1 := Materialise(w, p);
    (w1, w1.heap[p].shadow.value)
  }

  /** The values `isinstance(val, Sequence)` holds for, whose assignment
      takes the sequence branch of `__setitem__`: strings, plain lists and
      list proxies. */
  predicate IsSequence(w: World, v: Value)
  {
    (v.Prim? && v.atom.Str?) || (v.Obj? && (IsList(w, v.ref) || IsListProxy(w, v.ref)))
  }

  /** The number of elements `for i in val` visits: a list proxy iterates
      its shadow, built from the backing list when it is not there yet. */
  function SeqLen(w: World, v: Value): (n: nat)
    requires IsSequence(w, v)
    ensures WF(w) && v.Obj? && IsListProxy(w, v.ref) ==> n == |Iter(w, v.ref).1|
  {
    if v.Prim? then |v.atom.s|
    else if IsList(w, v.ref) then |w.heap[v.ref].items|
    else if w.heap[v.ref].shadow.Some? then |w.heap[v.ref].shadow.value|
    else Len(w, v.ref)
  }

  /** The plain value `__setitem__` computes for `val`: its `_plain_`, or for
      a sequence the list of its elements' `_plain_`, where the first
      element hits the misspelt `isinstace` (a NameError), so only an empty
      sequence gets through, as a new empty list. */
  function PlainForSet(w: World, val: Value): (o: Outcome<Value>)
    requires WF(w)
    ensures Grows(w, o.w)
    ensures o.Err? ==> o.w == w
    ensures !IsSequence(w, val) ==> o.w == w && (o.Ok? <==> PlainOf(w, val).Some?)
    ensures !IsSequence(w, val) && o.Ok? ==> PlainOf(w, val) == Some(o.value)
    ensures !IsSequence(w, val) && o.Err? ==> o.error == NoPlain
    ensures IsSequence(w, val) ==> (o.Err? <==> SeqLen(w, val) > 0)
    ensures IsSequence(w, val) && o.Err? ==> o.error == NameUndefined("isinstace")
    ensures IsSequence(w, val) && o.Ok? ==>
              o.value.Obj? && o.value.ref !in w.heap && o.value.ref in o.w.heap && o.w.heap[o.value.ref] == ListNode([])
  {
    if IsSequence(w, val) then
      if SeqLen(w, val) > 0 then Err(w, NameUndefined("isinstace"))
      else
        var (w1, nv) := Alloc(w, ListNode([]));
        Ok(w1, Obj(nv))
    else match PlainOf(w, val)
      case None => Err(w, NoPlain)
      case Some(pv) => Ok(w, pv)
  }

  /** A materialised list proxy whose shadow is empty is assigned as an
      empty sequence whatever its backing list holds: another proxy over the
      same list may have appended to it since. */
  lemma StaleShadowCounts(w: World, q: Ref)
    requires WF(w) && IsListProxy(w, q) && w.heap[q].shadow == Some([])
    ensures PlainForSet(w, Obj(q)).Ok?
  {
  }

  /** `proxy[index] = val` as the source writes it: the shadow entry is
      replaced BEFORE the plain value is computed, so a value the plain
      value cannot be computed for raises with the shadow already changed. */
  function SetItemAsWritten(w: World, p: Ref, index: int, val: Value): (o: Outcome<()>)
    requires WF(w) && IsListProxy(w, p)
    ensures Extends(w, o.w) && IsListProxy(o.w, p)
    ensures forall r :: r in w.heap && r != p && r != w.heap[p].list ==> o.w.heap[r] == w.heap[r]
  {
    var w1 := Materialise(w, p);
    var px := w1.heap[p];
    var s := px.shadow.value;
    match NormIndex(index, |s|)
    case None => Err(w1, IndexOutOfRange(index))
    case Some(i) =>
      var w2 := Store(w1, p, px.(shadow := Some(s[i := val])));
      StoreExtends(w1, p, px.(shadow := Some(s[i := val])));
      ExtendsTrans(w, w1, w2);
      match PlainForSet(w2, val)
      case Err(w3, e) => Err(w3, e)
      case Ok(w3, pv) =>
        GrowsExtends(w2, w3);
        ExtendsTrans(w, w2, w3);
        var items := Items(w1, p);
        match NormIndex(index, |items|)
        case None => Err(w3, IndexOutOfRange(index))
        case Some(j) =>
          StoreExtends(w3, px.list, ListNode(items[j := pv]));
          ExtendsTrans(w, w3, Store(w3, px.list, ListNode(items[j := pv])));
          Ok(Store(w3, px.list, ListNode(items[j := pv])), ())
  }

  /** `proxy[index] = val` with the element type checked first, as `insert`
      does: nothing changes unless `val` is an element-type record. */
  function SetItem(reg: Registry, w: World, p: Ref, index: int, val: Value): (o: Outcome<()>)
    requires WF(w) && IsListProxy(w, p)
    ensures Extends(w, o.w) && IsListProxy(o.w, p)
    ensures forall r :: r in w.heap && r != p && r != w.heap[p].list ==> o.w.heap[r] == w.heap[r]
    ensures !IsInstance(reg, w, val, w.heap[p].elem) ==> o == Err(w, NotAnInstance(w.heap[p].elem))
  {
    if !IsInstance(reg, w, val, w.heap[p].elem) then Err(w, NotAnInstance(w.heap[p].elem))
    else SetItemAsWritten(w, p, index, val)
  }

  /** `del proxy[index]`: the backing list first, then the shadow. */
  function DelItem(w: World, p: Ref, index: int): (o: Outcome<()>)
    requires WF(w) && IsListProxy(w, p)
    ensures Extends(w, o.w) && IsListProxy(o.w, p)
    ensures forall r :: r in w.heap && r != p && r != w.heap[p].list ==> o.w.heap[r] == w.heap[r]
    ensures o.Err? <==> NormIndex(index, Len(w, p)).None?
                        || NormIndex(index, |Materialise(w, p).heap[p].shadow.value|).None?
  {
    var w1 := Materialise(w, p);
    var px := w1.heap[p];
    var items := Items(w1, p);
    match NormIndex(index, |items|)
    case None => Err(w1, IndexOutOfRange(index))
    case Some(j) =>
      var w2 := Store(w1, px.list, ListNode(items[..j] + items[j + 1..]));
      StoreExtends(w1, px.list, ListNode(items[..j] + items[j + 1..]));
      ExtendsTrans(w, w1, w2);
      var s := px.shadow.value;
      match NormIndex(index, |s|)
      case None => Err(w2, IndexOutOfRange(index))
      case Some(i) =>
        var w3 := Store(w2, p, px.(shadow := Some(s[..i] + s[i + 1..])));
        StoreExtends(w2, p, px.(shadow := Some(s[..i] + s[i + 1..])));
        ExtendsTrans(w, w2, w3);
        Ok(w3, ())
  }

  /** `proxy.insert(index, val)`: `val` must be an element-type instance; it
      goes into the shadow and its `_plain_` into the backing list, each at the
      position `list.insert` picks. */
  function Insert(reg: Registry, w: World, p: Ref, index: int, val: Value): (o: Outcome<()>)
    requires WF(w) && IsListProxy(w, p)
    ensures Extends(w, o.w) && IsListProxy(o.w, p)
    ensures forall r :: r in w.heap && r != p && r != w.heap[p].list ==> o.w.heap[r] == w.heap[r]
    ensures o.Err? <==> !IsInstance(reg, w, val, w.heap[p].elem)
    ensures o.Err? ==> o == Err(w, NotAnInstance(w.heap[p].elem))
    ensures o.Ok? ==>
              var j := InsertPos(index, Len(w, p));
              Items(o.w, p) == Items(w, p)[..j] + [w.heap[val.ref].backing] + Items(w, p)[j..]
  {
    var px := w.heap[p];
    if !IsInstance(reg, w, val, px.elem) then Err(w, NotAnInstance(px.elem))
    else
      var w1 := Materialise(w, p);
      var px1 := w1.heap[p];
      var s := px1.shadow.value;
      var i := InsertPos(index, |s|);
      var w2 := Store(w1, p, px1.(shadow := Some(s[..i] + [val] + s[i..])));
      StoreExtends(w1, p, px1.(shadow := Some(s[..i] + [val] + s[i..])));
      var items := Items(w1, p);
      var j := InsertPos(index, |items|);
      var w3 := Store(w2, px1.list, ListNode(items[..j] + [w.heap[val.ref].backing] + items[j..]));
      StoreExtends(w2, px1.list, ListNode(items[..j] + [w.heap[val.ref].backing] + items[j..]));
      ExtendsTrans(w, w1, w2);
      ExtendsTrans(w, w2, w3);
      Ok(w3, ())
  }

  /** `proxy.append(val)`: `MutableSequence.append` is `insert(len(self), val)`. */
  function Append(reg: Registry, w: World, p: Ref, val: Value): (o: Outcome<()>)
    requires WF(w) && IsListProxy(w, p)
    ensures Extends(w, o.w) && IsListProxy(o.w, p)
    ensures forall r :: r in w.heap && r != p && r != w.heap[p].list ==> o.w.heap[r] == w.heap[r]
    ensures o.Err? <==> !IsInstance(reg, w, val, w.heap[p].elem)
    ensures o.Ok? ==> IsInstance(reg, w, val, w.heap[p].elem)
                      && Items(o.w, p) == Items(w, p) + [w.heap[val.ref].backing] && Len(o.w, p) == Len(w, p) + 1
  {
    var o := Insert(reg, w, p, Len(w, p), val);
    assert o.Ok? ==> Items(w, p)[..Len(w, p)] == Items(w, p) && Items(w, p)[Len(w, p)..] == [];
    o
  }

  // ---------------------------------------------------------------------
  // Lockstep properties
  // ---------------------------------------------------------------------

  /** Pairing survives every later state: records keep their `_plain_`. */
  lemma PairedStable(w: World, w': World, s: seq<Value>, items: seq<Value>)
    requires Extends(w, w') && Paired(w, s, items)
    ensures Paired(w', s, items)
  {
    forall i | 0 <= i < |s| ensures IsRecord(w', s[i].ref) && w'.heap[s[i].ref].backing == items[i] {
      assert Stable(w.heap[s[i].ref], w'.heap[s[i].ref]);
    }
  }

  /** Inserting a record and its `_plain_` at the same position keeps the
      pairing. */
  lemma PairedInsert(w: World, s: seq<Value>, items: seq<Value>, j: nat, val: Value, pv: Value)
    requires Paired(w, s, items) && j <= |s|
    requires val.Obj? && IsRecord(w, val.ref) && w.heap[val.ref].backing == pv
    ensures Paired(w, s[..j] + [val] + s[j..], items[..j] + [pv] + items[j..])
  {
    var s', items' := s[..j] + [val] + s[j..], items[..j] + [pv] + items[j..];
    forall i | 0 <= i < |s'|
      ensures s'[i].Obj? && IsRecord(w, s'[i].ref) && w.heap[s'[i].ref].backing == items'[i]
    {
      if i < j {
        assert s'[i] == s[i] && items'[i] == items[i];
      } else if i > j {
        assert s'[i] == s[i - 1] && items'[i] == items[i - 1];
      }
    }
  }

  /** Removing the same position from both keeps the pairing. */
  lemma PairedDelete(w: World, s: seq<Value>, items: seq<Value>, j: nat)
    requires Paired(w, s, items) && j < |s|
    ensures Paired(w, s[..j] + s[j + 1..], items[..j] + items[j + 1..])
  {
    var s', items' := s[..j] + s[j + 1..], items[..j] + items[j + 1..];
    forall i | 0 <= i < |s'|
      ensures s'[i].Obj? && IsRecord(w, s'[i].ref) && w.heap[s'[i].ref].backing == items'[i]
    {
      if i < j {
        assert s'[i] == s[i] && items'[i] == items[i];
      } else {
        assert s'[i] == s[i + 1] && items'[i] == items[i + 1];
      }
    }
  }

  /** Replacing the same position in both by a record and its `_plain_`
      keeps the pairing. */
  lemma PairedUpdate(w: World, s: seq<Value>, items: seq<Value>, j: nat, val: Value, pv: Value)
    requires Paired(w, s, items) && j < |s|
    requires val.Obj? && IsRecord(w, val.ref) && w.heap[val.ref].backing == pv
    ensures Paired(w, s[j := val], items[j := pv])
  {
  }

  /** `insert` keeps the shadow and the backing list in lockstep, inserting
      at the same position in both. */
  lemma InsertKeepsLockstep(reg: Registry, w: World, p: Ref, index: int, val: Value)
    requires WF(w) && IsListProxy(w, p) && Coherent(w, p)
    requires Insert(reg, w, p, index, val).Ok?
    ensures var o := Insert(reg, w, p, index, val);
            var s := Materialise(w, p).heap[p].shadow.value;
            var j := InsertPos(index, Len(w, p));
            && Lockstep(o.w, p)
            && o.w.heap[p].shadow == Some(s[..j] + [val] + s[j..])
  {
    var w1 := Materialise(w, p);
    MaterialisedLockstep(w, p);
    var o := Insert(reg, w, p, index, val);
    var s := w1.heap[p].shadow.value;
    var items := Items(w, p);
    var j := InsertPos(index, |items|);
    var pv := w.heap[val.ref].backing;
    assert o.w.heap[p].shadow == Some(s[..j] + [val] + s[j..]);
    assert Stable(w.heap[val.ref], o.w.heap[val.ref]);
    PairedStable(w1, o.w, s, items);
    PairedInsert(o.w, s, items, j, val, pv);
  }

  /** `append` extends both the shadow and the backing list at the end. */
  lemma AppendKeepsLockstep(reg: Registry, w: World, p: Ref, val: Value)
    requires WF(w) && IsListProxy(w, p) && Coherent(w, p)
    requires Append(reg, w, p, val).Ok?
    ensures var o := Append(reg, w, p, val);
            && Lockstep(o.w, p)
            && o.w.heap[p].shadow == Some(Materialise(w, p).heap[p].shadow.value + [val])
  {
    InsertKeepsLockstep(reg, w, p, Len(w, p), val);
    MaterialisedLockstep(w, p);
    var s := Materialise(w, p).heap[p].shadow.value;
    assert |s| == Len(w, p);
    assert InsertPos(Len(w, p), Len(w, p)) == |s|;
    assert s[..|s|] + [val] + s[|s|..] == s + [val];
    assert Append(reg, w, p, val) == Insert(reg, w, p, Len(w, p), val);
  }

  /** `del proxy[index]` removes the same index from both; an index out of
      range raises IndexError with both unchanged (the shadow materialised). */
  lemma DelItemKeepsLockstep(w: World, p: Ref, index: int)
    requires WF(w) && IsListProxy(w, p) && Coherent(w, p)
    ensures var o := DelItem(w, p, index);
            var s := Materialise(w, p).heap[p].shadow.value;
            && (o.Ok? <==> NormIndex(index, Len(w, p)).Some?)
            && (o.Err? ==> o == Err(Materialise(w, p), IndexOutOfRange(index)))
            && Lockstep(o.w, p)
            && (o.Ok? ==>
                  var j := NormIndex(index, Len(w, p)).value;
                  && Items(o.w, p) == Items(w, p)[..j] + Items(w, p)[j + 1..]
                  && o.w.heap[p].shadow == Some(s[..j] + s[j + 1..]))
  {
    var w1 := Materialise(w, p);
    MaterialisedLockstep(w, p);
    var o := DelItem(w, p, index);
    if o.Ok? {
      var s := w1.heap[p].shadow.value;
      var items := Items(w, p);
      var j := NormIndex(index, |items|).value;
      assert o.w.heap[p].shadow == Some(s[..j] + s[j + 1..]);
      PairedStable(w1, o.w, s, items);
      PairedDelete(o.w, s, items, j);
    }
  }

  /** Assigning a value that has a `_plain_` and is not a sequence: both the
      shadow and the backing list are replaced at the same index. */
  lemma SetItemAsWrittenPlain(w: World, p: Ref, index: int, val: Value)
    requires WF(w) && IsListProxy(w, p) && Coherent(w, p)
    requires !IsSequence(w, val) && PlainOf(w, val).Some?
    ensures var o := SetItemAsWritten(w, p, index, val);
            var w1 := Materialise(w, p);
            && (o.Ok? <==> NormIndex(index, Len(w, p)).Some?)
            && (o.Err? ==> o == Err(w1, IndexOutOfRange(index)))
            && Extends(w1, o.w) && IsListProxy(o.w, p)
            && (o.Ok? ==>
                  var j := NormIndex(index, Len(w, p)).value;
                  && Items(o.w, p) == Items(w, p)[j := PlainOf(w, val).value]
                  && o.w.heap[p].shadow == Some(w1.heap[p].shadow.value[j := val]))
  {
    MaterialisedLockstep(w, p);
    var w1 := Materialise(w, p);
    var px := w1.heap[p];
    if NormIndex(index, Len(w, p)).Some? {
      var i := NormIndex(index, Len(w, p)).value;
      var w2 := Store(w1, p, px.(shadow := Some(px.shadow.value[i := val])));
      StoreExtends(w1, p, px.(shadow := Some(px.shadow.value[i := val])));
      if val.Obj? {
        assert val.ref != p && w2.heap[val.ref] == w.heap[val.ref];
        if w.heap[val.ref].ListProxy? {
          var l := w.heap[val.ref].list;
          assert IsList(w2, l) ==> IsList(w, l);
        }
      }
      assert !IsSequence(w2, val);
      PlainOfStable(w, w2, val);
      var w3 := Store(w2, px.list, ListNode(Items(w1, p)[i := PlainOf(w, val).value]));
      StoreExtends(w2, px.list, ListNode(Items(w1, p)[i := PlainOf(w, val).value]));
      ExtendsTrans(w1, w2, w3);
    }
  }

  /** Single-element assignment with the type check first replaces the same
      index in both; a non-instance or an index out of range changes neither. */
  lemma SetItemKeepsLockstep(reg: Registry, w: World, p: Ref, index: int, val: Value)
    requires WF(w) && IsListProxy(w, p) && Coherent(w, p)
    ensures var o := SetItem(reg, w, p, index, val);
            var s := Materialise(w, p).heap[p].shadow.value;
            && (o.Ok? <==> IsInstance(reg, w, val, w.heap[p].elem) && NormIndex(index, Len(w, p)).Some?)
            && Coherent(o.w, p)
            && (o.Ok? ==>
                  var j := NormIndex(index, Len(w, p)).value;
                  && Lockstep(o.w, p)
                  && Items(o.w, p) == Items(w, p)[j := w.heap[val.ref].backing]
                  && o.w.heap[p].shadow == Some(s[j := val]))
  {
    var o := SetItem(reg, w, p, index, val);
    if IsInstance(reg, w, val, w.heap[p].elem) {
      var w1 := Materialise(w, p);
      MaterialisedLockstep(w, p);
      assert !IsSequence(w, val);
      SetItemAsWrittenPlain(w, p, index, val);
      if o.Ok? {
        var s := w1.heap[p].shadow.value;
        var items := Items(w, p);
        var j := NormIndex(index, |items|).value;
        assert o.w.heap[p].shadow == Some(s[j := val]);
        assert Stable(w.heap[val.ref], o.w.heap[val.ref]);
        PairedStable(w1, o.w, s, items);
        PairedUpdate(o.w, s, items, j, val, w.heap[val.ref].backing);
      }
    }
  }

  /** The source's `__setitem__` writes the shadow before it reads
      `val._plain_`: assigning a value without `_plain_` (`None`, a number)
      raises AttributeError with the shadow changed and the backing list not,
      so the proxy leaves lockstep and `proxy[index]` now returns `val`. */
  lemma SetItemAsWrittenBreaksLockstep(w: World, p: Ref, index: int, val: Value)
    requires WF(w) && IsListProxy(w, p) && Coherent(w, p)
    requires NormIndex(index, Len(w, p)).Some?
    requires val == Null || (val.Prim? && val.atom.Num?)
    ensures var o := SetItemAsWritten(w, p, index, val);
            && o.Err? && o.error == NoPlain
            && Items(o.w, p) == Items(w, p)
            && !Coherent(o.w, p)
            && GetItem(o.w, p, index) == Ok(o.w, val)
  {
    MaterialisedLockstep(w, p);
    var o := SetItemAsWritten(w, p, index, val);
    var j := NormIndex(index, Len(w, p)).value;
    assert o.w.heap[p].shadow.value[j] == val;
  }

  /** Writing the shadow leaves a sequence value a sequence of the same
      length. */
  lemma SequenceSurvivesShadowWrite(w: World, p: Ref, index: int, val: Value)
    requires WF(w) && IsListProxy(w, p) && Coherent(w, p)
    requires NormIndex(index, Len(w, p)).Some? && IsSequence(w, val)
    ensures var w1 := Materialise(w, p);
            var px := w1.heap[p];
            var w2 := Store(w1, p, px.(shadow := Some(px.shadow.value[NormIndex(index, Len(w, p)).value := val])));
            IsSequence(w2, val) && SeqLen(w2, val) == SeqLen(w, val)
  {
  }

  /** The source's sequence branch of `__setitem__` checks each element with
      the misspelt `isinstace`: assigning a non-empty string, plain list or
      list proxy raises NameError with the shadow already changed and the
      backing list not. */
  lemma SetItemSequenceAsWritten(w: World, p: Ref, index: int, val: Value)
    requires WF(w) && IsListProxy(w, p) && Coherent(w, p)
    requires NormIndex(index, Len(w, p)).Some?
    requires IsSequence(w, val) && SeqLen(w, val) > 0
    ensures var o := SetItemAsWritten(w, p, index, val);
            && o == Err(o.w, NameUndefined("isinstace"))
            && Items(o.w, p) == Items(w, p)
            && o.w.heap[p].shadow.Some? && |o.w.heap[p].shadow.value| == Len(w, p)
            && o.w.heap[p].shadow.value[NormIndex(index, Len(w, p)).value] == val
            && !Coherent(o.w, p)
  {
    MaterialisedLockstep(w, p);
    SequenceSurvivesShadowWrite(w, p, index, val);
  }

  /** Assigning an empty sequence stores a new empty list at that index of
      the backing list while the shadow holds the sequence itself, so the
      two are out of lockstep although nothing was raised. */
  lemma SetItemEmptySequenceAsWritten(w: World, p: Ref, index: int, val: Value)
    requires WF(w) && IsListProxy(w, p) && Coherent(w, p)
    requires NormIndex(index, Len(w, p)).Some?
    requires IsSequence(w, val) && SeqLen(w, val) == 0
    ensures var o := SetItemAsWritten(w, p, index, val);
            var j := NormIndex(index, Len(w, p)).value;
            && o.Ok?
            && |Items(o.w, p)| == Len(w, p)
            && Items(o.w, p)[j].Obj? && Items(o.w, p)[j].ref !in w.heap
            && Items(o.w, p)[j].ref in o.w.heap && o.w.heap[Items(o.w, p)[j].ref] == ListNode([])
            && o.w.heap[p].shadow.Some? && |o.w.heap[p].shadow.value| == Len(w, p)
            && o.w.heap[p].shadow.value[j] == val
            && !Lockstep(o.w, p)
  {
    MaterialisedLockstep(w, p);
    SequenceSurvivesShadowWrite(w, p, index, val);
  }

  /** A `FieldList` slot cannot be assigned. */
  lemma ListSlotCannotBeSet(reg: Registry, w: World, inst: Ref, name: string, f: FieldDecl, v: Value)
    requires WF(w) && IsRecord(w, inst) && f.kind.ListOf?
    ensures SetSlot(reg, w, inst, name, f, v) == Err(w, CannotSet("FieldList"))
  {
  }

  /** Reading a `FieldList` slot wraps the raw list in an unmaterialised proxy
      whose `_plain_` is that very list; an absent raw value becomes a fresh
      empty list that is persisted into the record's plain tree. */
  lemma ListSlotGet(w: World, inst: Ref, name: string, f: FieldDecl)
    requires WF(w) && IsRecord(w, inst) && f.kind.ListOf?
    requires name !in w.heap[inst].cache && BackingDict(w, inst).Some?
    ensures var d := BackingDict(w, inst).value;
            var raw := Raw(w, d, name);
            var o := GetSlot(w, inst, name, f);
            && (o.Err? <==> raw.Some? && !(raw.value.Obj? && IsList(w, raw.value.ref)))
            && (o.Ok? ==>
                  && o.value.Obj? && o.value.ref !in w.heap && IsListProxy(o.w, o.value.ref)
                  && o.w.heap[o.value.ref].elem == f.kind.elem
                  && o.w.heap[o.value.ref].shadow.None?
                  && o.w.heap[d].entries[Str(name)] == Obj(o.w.heap[o.value.ref].list)
                  && (raw.Some? ==> raw.value == Obj(o.w.heap[o.value.ref].list))
                  && (raw.None? ==> o.w.heap[o.value.ref].list !in w.heap && Items(o.w, o.value.ref) == []))
  {
  }
}

=== FILE: records.dfy ===
/**
 * The record type itself: `Component.from_plain`/`as_plain` and keyword
 * construction `Component(**kwargs)`, which writes every supplied slot through
 * its setter and then checks that every omitted slot can still be resolved.
 */
module Records {
  import opened Wrappers
  import opened Heap
  import opened Schema
  import opened Slots
  import Text

  /** Keyword arguments in call order; a `**kwargs` dict has distinct keys. */
  type Kwargs = seq<(string, Value)>

  function ArgNames(kw: Kwargs): set<string>
  {
    set p | p in kw :: p.0
  }

  predicate DistinctArgs(kw: Kwargs)
  {
    forall i, j :: 0 <= i < j < |kw| ==> kw[i].0 != kw[j].0
  }

  /** No name occurs twice. */
  predicate Unique(ns: seq<string>)
  {
    forall n :: n in ns ==> multiset(ns)[n] <= 1
  }

  /** The value refers to nothing that does not exist yet. */
  predicate Allocated(w: World, v: Value)
  {
    v.Obj? ==> v.ref in w.heap
  }

  /** Every keyword value already exists when the constructor is called. */
  predicate ArgsAllocated(w: World, kw: Kwargs)
  {
    forall p :: p in kw ==> Allocated(w, p.1)
  }

  /** Every declared default already exists (it was built with the class). */
  predicate DefaultsAllocated(w: World, fields: Fields)
  {
    forall p :: p in fields && p.1.default.DefaultTo? ==> Allocated(w, p.1.default.value)
  }

  /** The declaration of a declared name. */
  function FieldOf(fields: Fields, n: string): (f: FieldDecl)
    requires n in Keys(fields)
    ensures (n, f) in fields
  {
    Lookup(fields, n).value
  }

  // ---------------------------------------------------------------------
  // from_plain / as_plain
  // ---------------------------------------------------------------------

  /** `cls.from_plain(plain)`: a new record adopting `plain` itself (no copy,
      no check), with nothing decoded yet. */
  function FromPlain(w: World, cls: ClassId, plain: Value): (o: (World, Ref))
    requires WF(w)
    ensures Grows(w, o.0) && o.1 !in w.heap && IsRecord(o.0, o.1)
    ensures o.0.heap[o.1].cls == cls && o.0.heap[o.1].cache == map[]
    ensures o.0.heap[o.1].backing == plain
  {
    Alloc(w, Record(cls, plain, map[]))
  }

  /** `inst.as_plain()`: the record's `_plain_`, by reference. */
  function AsPlain(w: World, inst: Ref): (v: Value)
    requires IsRecord(w, inst)
    ensures PlainOf(w, Obj(inst)) == Some(v)
  {
    w.heap[inst].backing
  }

  // ---------------------------------------------------------------------
  // Construction
  // ---------------------------------------------------------------------

  /** The keyword names the class does not declare, in call order. */
  function Extras(kw: Kwargs, names: set<string>): (r: seq<string>)
    ensures forall n :: n in r <==> n in ArgNames(kw) && n !in names
    ensures r == [] <==> ArgNames(kw) <= names
  {
    if |kw| == 0 then []
    else
      assert ArgNames(kw) == {kw[0].0} + ArgNames(kw[1..]) by {
        assert forall p :: p in kw <==> p == kw[0] || p in kw[1..];
      }
      (if kw[0].0 in names then [] else [kw[0].0]) + Extras(kw[1..], names)
  }

  /** The declared names no keyword supplies, in declaration order. */
  function Omitted(fields: Fields, kw: Kwargs): (r: seq<string>)
    ensures forall n :: n in r <==> n in Keys(fields) && n !in ArgNames(kw)
  {
    if |fields| == 0 then []
    else (if fields[0].0 in ArgNames(kw) then [] else [fields[0].0]) + Omitted(fields[1..], kw)
  }

  /** The names among `ns` whose slot cannot be resolved from an absent
      value: the ones the constructor reports as missing. */
  function Unresolved(w: World, fields: Fields, ns: seq<string>): (r: seq<string>)
    requires forall n :: n in ns ==> n in Keys(fields)
    ensures forall n :: n in r <==> n in ns && GetterFails(w, FieldOf(fields, n), None)
  {
    if |ns| == 0 then []
    else (if GetterFails(w, FieldOf(fields, ns[0]), None) then [ns[0]] else []) + Unresolved(w, fields, ns[1..])
  }

  /** The assignment loop: each keyword through its field's `__set__`, in
      call order; the first setter error propagates. */
  function SetAll(reg: Registry, w: World, inst: Ref, fields: Fields, kw: Kwargs): (o: Outcome<()>)
    requires WF(w) && IsRecord(w, inst) && BackingDict(w, inst).Some?
    requires forall n :: n in ArgNames(kw) ==> n in Keys(fields)
    ensures Extends(w, o.w)
    ensures o.Err? ==> o.error.TypeMismatch? || o.error.CannotSet?
    ensures o.Ok? ==>
              && IsRecord(o.w, inst) && BackingDict(o.w, inst) == BackingDict(w, inst)
              && o.w.heap.Keys == w.heap.Keys
              && (forall r :: r in w.heap && r != inst && r != BackingDict(w, inst).value ==> o.w.heap[r] == w.heap[r])
    decreases |kw|
  {
    if |kw| == 0 then Ok(w, ())
    else
      assert kw[0] in kw;
      assert forall n :: n in ArgNames(kw[1..]) ==> n in ArgNames(kw) by {
        assert forall p :: p in kw[1..] ==> p in kw;
      }
      match SetSlot(reg, w, inst, kw[0].0, FieldOf(fields, kw[0].0), kw[0].1)
      case Err(w1, e) => Err(w1, e)
      case Ok(w1, _) =>
        var o := SetAll(reg, w1, inst, fields, kw[1..]);
        ExtendsTrans(w, w1, o.w);
        o
  }

  /** The check of the omitted names: each slot is read, an AttributeError
      adds the name to the report, any other error propagates. */
  function ResolveAll(w: World, inst: Ref, fields: Fields, ns: seq<string>): (o: Outcome<seq<string>>)
    requires WF(w) && IsRecord(w, inst) && BackingDict(w, inst).Some?
    requires forall n :: n in ns ==> n in Keys(fields)
    ensures Extends(w, o.w)
    ensures o.Err? ==> o.error.NotADict? || o.error.NotAList?
    ensures o.Ok? ==>
              && IsRecord(o.w, inst) && BackingDict(o.w, inst) == BackingDict(w, inst)
              && (forall n :: n in o.value ==> n in ns)
              && (forall r :: r in w.heap && r != inst && r != BackingDict(w, inst).value ==> o.w.heap[r] == w.heap[r])
    decreases |ns|
  {
    if |ns| == 0 then Ok(w, [])
    else match GetSlot(w, inst, ns[0], FieldOf(fields, ns[0]))
      case Err(w1, e) =>
        if IsAttributeError(e) then
          match ResolveAll(w1, inst, fields, ns[1..])
          case Ok(w2, rest) => Ok(w2, [ns[0]] + rest)
          case Err(w2, e2) => Err(w2, e2)
        else Err(w1, e)
      case Ok(w1, _) =>
        var o := ResolveAll(w1, inst, fields, ns[1..]);
        ExtendsTrans(w, w1, o.w);
        o
  }

  /** The fresh record of a construction: a new record of class `cls` over
      a new empty plain dict. */
  function Fresh(w: World, cls: ClassId): (o: (World, Ref, Ref))
    requires WF(w)
    ensures Grows(w, o.0) && o.1 !in w.heap && o.2 !in w.heap && o.1 != o.2
    ensures IsRecord(o.0, o.2) && o.0.heap[o.2] == Record(cls, Obj(o.1), map[])
    ensures IsDict(o.0, o.1) && o.0.heap[o.1].entries == map[]
  {
    var (w1, d) := Alloc(w, DictNode(map[]));
    var (w2, inst) := Alloc(w1, Record(cls, Obj(d), map[]));
    (w2, d, inst)
  }

  /** Changes confined to the new record and its new dict leave every
      object that existed before untouched. */
  lemma FreshUntouched(w: World, w': World, w'': World, inst: Ref, d: Ref)
    requires w.heap.Keys <= w'.heap.Keys <= w''.heap.Keys && inst !in w.heap && d !in w.heap
    requires forall r :: r in w.heap ==> w'.heap[r] == w.heap[r]
    requires forall r :: r in w'.heap && r != inst && r != d ==> w''.heap[r] == w'.heap[r]
    ensures forall r :: r in w.heap ==> w''.heap[r] == w.heap[r]
  {
  }

  /** Construction once every keyword is known to be declared: the
      assignment loop, then the check of the omitted names. */
  function Populate(reg: Registry, w: World, cls: ClassId, kw: Kwargs): (o: Outcome<Ref>)
    requires WF(w) && cls < |reg.classes| && ClassWF(reg, cls)
    requires ArgNames(kw) <= reg.classes[cls].names
    ensures o.Err? ==> o.w == w
    ensures o.Err? ==> o.error.TypeMismatch? || o.error.CannotSet? || o.error.NotADict? || o.error.NotAList?
                       || o.error.MissingParams?
    ensures o.Ok? ==>
              && Extends(w, o.w) && o.value !in w.heap
              && IsRecord(o.w, o.value) && o.w.heap[o.value].cls == cls
              && (forall r :: r in w.heap ==> o.w.heap[r] == w.heap[r])
  {
    var info := reg.classes[cls];
    var (w2, d, inst) := Fresh(w, cls);
    GrowsExtends(w, w2);
    match SetAll(reg, w2, inst, info.fields, kw)
    case Err(_, e) => Err(w, e)
    case Ok(w3, _) =>
      ExtendsTrans(w, w2, w3);
      FreshUntouched(w, w2, w3, inst, d);
      var omitted := Omitted(info.fields, kw);
      if |omitted| == 0 then Ok(w3, inst)
      else match ResolveAll(w3, inst, info.fields, omitted)
        case Err(_, e) => Err(w, e)
        case Ok(w4, report) =>
          ExtendsTrans(w, w3, w4);
          FreshUntouched(w, w3, w4, inst, d);
          if |report| == 0 then Ok(w4, inst) else Err(w, MissingParams(Text.Sort(report)))
  }

  /** `cls(**kwargs)`: undeclared keywords raise "Extra params"; then the
      keywords are assigned and omitted slots that cannot resolve raise
      "Missing params". On an error the new objects are unreachable, so the
      world is the caller's. */
  function Construct(reg: Registry, w: World, cls: ClassId, kw: Kwargs): (o: Outcome<Ref>)
    requires WF(w) && cls < |reg.classes| && ClassWF(reg, cls)
    ensures o.Err? ==> o.w == w
    ensures o.Ok? ==>
              && Extends(w, o.w) && o.value !in w.heap
              && IsRecord(o.w, o.value) && o.w.heap[o.value].cls == cls
              && (forall r :: r in w.heap ==> o.w.heap[r] == w.heap[r])
  {
    var extras := Extras(kw, reg.classes[cls].names);
    if |extras| > 0 then Err(w, ExtraParams(Text.Sort(extras)))
    else Populate(reg, w, cls, kw)
  }

  // ---------------------------------------------------------------------
  // Slot bookkeeping
  // ---------------------------------------------------------------------

  /** A slot's decoded (cached) and persisted (plain) values. */
  function SlotState(w: World, inst: Ref, d: Ref, n: string): (Option<Value>, Option<Value>)
    requires IsRecord(w, inst) && IsDict(w, d)
  {
    (if n in w.heap[inst].cache then Some(w.heap[inst].cache[n]) else None, Raw(w, d, n))
  }

  /** The slot is filled: decoded, persisted, and the two agree. */
  predicate Filled(w: World, inst: Ref, n: string, k: Kind)
    requires IsRecord(w, inst)
  {
    n in w.heap[inst].cache && SlotCoherent(w, inst, n, k)
  }

  /** A slot resolved from nothing: a simple or nested-object field caches
      its default itself (not a copy), and a collection field a new empty
      proxy. */
  predicate TookDefault(w: World, inst: Ref, n: string, f: FieldDecl)
    requires IsRecord(w, inst)
  {
    n in w.heap[inst].cache ==>
      if f.kind.Simple? || f.kind.Comp? then f.default == DefaultTo(w.heap[inst].cache[n])
      else EmptyView(w, w.heap[inst].cache[n], f.kind)
  }

  /** A resolved default survives any step that keeps the slot's cache entry
      and touches no object but the record and its plain dict, which already
      holds the slot's name. */
  lemma TookDefaultStable(w: World, w': World, inst: Ref, d: Ref, n: string, f: FieldDecl)
    requires IsRecord(w, inst) && IsRecord(w', inst) && IsDict(w, d) && w.heap.Keys <= w'.heap.Keys
    requires Str(n) in w.heap[d].entries
    requires n in w.heap[inst].cache && n in w'.heap[inst].cache && w'.heap[inst].cache[n] == w.heap[inst].cache[n]
    requires forall r :: r in w.heap && r != inst && r != d ==> w'.heap[r] == w.heap[r]
    requires TookDefault(w, inst, n, f)
    ensures TookDefault(w', inst, n, f)
  {
  }

  /** What a successful construction leaves in its record `inst` over the
      plain dict `d`: every declared slot filled, each keyword's slot caching
      the keyword's value, each omitted simple or nested-object slot caching
      its default itself, and `d` holding exactly the declared names. */
  ghost predicate Populated(w: World, inst: Ref, d: Ref, info: ClassInfo, kw: Kwargs)
    requires IsRecord(w, inst) && IsDict(w, d) && info.names == Keys(info.fields)
  {
    && BackingDict(w, inst) == Some(d)
    && (forall n :: n in info.names ==> Filled(w, inst, n, FieldOf(info.fields, n).kind))
    && (forall p :: p in kw ==> p.0 in w.heap[inst].cache && w.heap[inst].cache[p.0] == p.1)
    && (forall n :: n in info.names && n !in ArgNames(kw) ==> TookDefault(w, inst, n, FieldOf(info.fields, n)))
    && (forall a :: a in w.heap[d].entries <==> a.Str? && a.s in info.names)
  }

  /** From `w` to `w'` only the slots named in `ns` changed, and the plain
      dict gained no other key. */
  ghost predicate OnlySlots(w: World, w': World, inst: Ref, d: Ref, ns: set<string>)
    requires IsRecord(w, inst) && IsRecord(w', inst) && IsDict(w, d) && IsDict(w', d)
  {
    && (forall n :: n !in ns ==> SlotState(w', inst, d, n) == SlotState(w, inst, d, n))
    && (forall a :: a in w'.heap[d].entries ==> a in w.heap[d].entries || (a.Str? && a.s in ns))
  }

  /** A filled slot stays filled while neither of its two stores changes. */
  lemma FilledStable(w: World, w': World, inst: Ref, n: string, k: Kind)
    requires Extends(w, w') && IsRecord(w, inst) && IsRecord(w', inst)
    requires BackingDict(w, inst).Some? && BackingDict(w', inst) == BackingDict(w, inst)
    requires SlotState(w', inst, BackingDict(w, inst).value, n) == SlotState(w, inst, BackingDict(w, inst).value, n)
    requires Filled(w, inst, n, k)
    ensures Filled(w', inst, n, k)
  {
    var v := w.heap[inst].cache[n];
    if PlainOf(w, v).Some? {
      PlainOfStable(w, w', v);
    }
  }

  /** What an existing value decodes to, and whether it is an instance,
      never changes. */
  lemma AllocatedStable(reg: Registry, w: World, w': World, v: Value)
    requires Extends(w, w') && Allocated(w, v)
    ensures PlainOf(w', v) == PlainOf(w, v)
    ensures forall t :: IsInstance(reg, w', v, t) == IsInstance(reg, w, v, t)
    ensures v.Obj? && IsRecord(w, v.ref) ==> IsRecord(w', v.ref) && w'.heap[v.ref].backing == w.heap[v.ref].backing
  {
    if v.Obj? {
      assert Stable(w.heap[v.ref], w'.heap[v.ref]);
    }
  }

  lemma SetterStable(reg: Registry, w: World, w': World, f: FieldDecl, v: Value)
    requires Extends(w, w') && Allocated(w, v)
    ensures Setter(reg, w', f, v) == Setter(reg, w, f, v)
  {
    AllocatedStable(reg, w, w', v);
  }

  lemma GetterFailsStable(w: World, w': World, f: FieldDecl)
    requires Extends(w, w')
    requires f.default.DefaultTo? ==> Allocated(w, f.default.value)
    ensures GetterFails(w', f, None) == GetterFails(w, f, None)
  {
    if f.default.DefaultTo? {
      AllocatedStable(Registry([], map[]), w, w', f.default.value);
    }
  }

  lemma {:induction false} UnresolvedStable(w: World, w': World, fields: Fields, ns: seq<string>)
    requires Extends(w, w') && DefaultsAllocated(w, fields)
    requires forall n :: n in ns ==> n in Keys(fields)
    ensures Unresolved(w', fields, ns) == Unresolved(w, fields, ns)
    decreases |ns|
  {
    if |ns| > 0 {
      GetterFailsStable(w, w', FieldOf(fields, ns[0]));
      UnresolvedStable(w, w', fields, ns[1..]);
    }
  }

  /** The first keyword and the rest of a call's keywords. */
  lemma ArgsSplit(kw: Kwargs)
    requires |kw| > 0 && DistinctArgs(kw)
    ensures forall p :: p in kw <==> p == kw[0] || p in kw[1..]
    ensures ArgNames(kw) == {kw[0].0} + ArgNames(kw[1..])
    ensures kw[0].0 !in ArgNames(kw[1..])
    ensures DistinctArgs(kw[1..])
  {
    var rest := kw[1..];
    assert kw == [kw[0]] + rest;
    forall p | p in rest ensures p.0 != kw[0].0 {
      var j :| 0 <= j < |rest| && rest[j] == p;
      assert kw[j + 1] == p;
    }
    forall i, j | 0 <= i < j < |rest| ensures rest[i].0 != rest[j].0 {
      assert rest[i] == kw[i + 1] && rest[j] == kw[j + 1];
    }
  }

  /** Every keyword is assignable through its field's setter. */
  predicate Settable(reg: Registry, w: World, fields: Fields, kw: Kwargs)
    requires ArgNames(kw) <= Keys(fields)
  {
    forall p :: p in kw ==> Setter(reg, w, FieldOf(fields, p.0), p.1).Success?
  }

  // ---------------------------------------------------------------------
  // The two loops
  // ---------------------------------------------------------------------

  /** The assignment loop succeeds exactly when every keyword is assignable;
      otherwise it raises the error of one keyword's setter. */
  lemma {:induction false} SetAllSettable(reg: Registry, w: World, inst: Ref, fields: Fields, kw: Kwargs)
    requires WF(w) && IsRecord(w, inst) && BackingDict(w, inst).Some?
    requires ArgNames(kw) <= Keys(fields) && ArgsAllocated(w, kw)
    ensures var o := SetAll(reg, w, inst, fields, kw);
            && (o.Ok? <==> Settable(reg, w, fields, kw))
            && (o.Err? ==> exists p :: p in kw && Setter(reg, w, FieldOf(fields, p.0), p.1) == Failure(o.error))
    decreases |kw|
  {
    if |kw| > 0 {
      var rest := kw[1..];
      assert forall p :: p in kw <==> p == kw[0] || p in rest by {
        assert kw == [kw[0]] + rest;
      }
      assert ArgNames(rest) <= ArgNames(kw);
      var s := SetSlot(reg, w, inst, kw[0].0, FieldOf(fields, kw[0].0), kw[0].1);
      if s.Ok? {
        SetAllSettable(reg, s.w, inst, fields, rest);
        forall p | p in rest
          ensures Setter(reg, s.w, FieldOf(fields, p.0), p.1) == Setter(reg, w, FieldOf(fields, p.0), p.1)
        {
          SetterStable(reg, w, s.w, FieldOf(fields, p.0), p.1);
        }
        assert ArgsAllocated(s.w, rest);
      }
    }
  }

  /** After the assignment loop every keyword's slot is filled with the
      keyword's value, and no other slot changed. */
  lemma {:induction false} SetAllFills(reg: Registry, w: World, inst: Ref, fields: Fields, kw: Kwargs)
    requires WF(w) && IsRecord(w, inst) && BackingDict(w, inst).Some?
    requires ArgNames(kw) <= Keys(fields) && DistinctArgs(kw)
    requires SetAll(reg, w, inst, fields, kw).Ok?
    ensures var o := SetAll(reg, w, inst, fields, kw);
            && (forall p :: p in kw ==>
                  Filled(o.w, inst, p.0, FieldOf(fields, p.0).kind) && o.w.heap[inst].cache[p.0] == p.1)
            && OnlySlots(w, o.w, inst, BackingDict(w, inst).value, ArgNames(kw))
    decreases |kw|
  {
    if |kw| > 0 {
      var rest := kw[1..];
      ArgsSplit(kw);
      var f := FieldOf(fields, kw[0].0);
      var s := SetSlot(reg, w, inst, kw[0].0, f, kw[0].1);
      SetAllFills(reg, s.w, inst, fields, rest);
      var o := SetAll(reg, s.w, inst, fields, rest);
      FilledStable(s.w, o.w, inst, kw[0].0, f.kind);
    }
  }

  lemma OnlySlotsTrans(w1: World, w2: World, w3: World, inst: Ref, d: Ref, a: set<string>, b: set<string>)
    requires IsRecord(w1, inst) && IsRecord(w2, inst) && IsRecord(w3, inst)
    requires IsDict(w1, d) && IsDict(w2, d) && IsDict(w3, d)
    requires OnlySlots(w1, w2, inst, d, a) && OnlySlots(w2, w3, inst, d, b)
    ensures OnlySlots(w1, w3, inst, d, a + b)
  {
  }

  /** One omitted slot: reading it raises an AttributeError exactly when it
      is unresolvable, and otherwise fills that slot alone. */
  lemma ResolveStep(w: World, inst: Ref, n: string, f: FieldDecl)
    requires WF(w) && IsRecord(w, inst) && BackingDict(w, inst).Some?
    requires SlotState(w, inst, BackingDict(w, inst).value, n) == (None, None)
    ensures var g := GetSlot(w, inst, n, f);
            && (g.Err? <==> GetterFails(w, f, None))
            && (g.Err? ==> g.w == w && IsAttributeError(g.error))
            && (g.Ok? ==>
                  && IsRecord(g.w, inst) && BackingDict(g.w, inst) == BackingDict(w, inst)
                  && Filled(g.w, inst, n, f.kind)
                  && TookDefault(g.w, inst, n, f)
                  && OnlySlots(w, g.w, inst, BackingDict(w, inst).value, {n}))
  {
    GetSlotResolves(w, inst, n, f);
  }

  /** The first name and the rest of a list without repeats. */
  lemma UniqueSplit(ns: seq<string>)
    requires |ns| > 0 && Unique(ns)
    ensures ns == [ns[0]] + ns[1..]
    ensures (set n | n in ns) == {ns[0]} + (set n | n in ns[1..])
    ensures ns[0] !in ns[1..] && Unique(ns[1..])
  {
    var rest := ns[1..];
    assert ns == [ns[0]] + rest;
    assert multiset(ns)[ns[0]] == 1 + multiset(rest)[ns[0]];
    forall n | n in rest ensures multiset(rest)[n] <= 1 {
      assert multiset(ns)[n] >= multiset(rest)[n];
    }
  }

  /** The check of the omitted names never raises on a new record (every
      omitted slot is absent, and an absent collection slot always
      resolves), and it reports exactly the unresolvable names. */
  lemma {:induction false} ResolveAllReports(w: World, inst: Ref, fields: Fields, ns: seq<string>)
    requires WF(w) && IsRecord(w, inst) && BackingDict(w, inst).Some?
    requires forall n :: n in ns ==> n in Keys(fields)
    requires Unique(ns)
    requires forall n :: n in ns ==> SlotState(w, inst, BackingDict(w, inst).value, n) == (None, None)
    ensures var o := ResolveAll(w, inst, fields, ns);
            && o.Ok?
            && (DefaultsAllocated(w, fields) ==> o.value == Unresolved(w, fields, ns))
    decreases |ns|
  {
    var d := BackingDict(w, inst).value;
    if |ns| > 0 {
      var rest := ns[1..];
      UniqueSplit(ns);
      var f := FieldOf(fields, ns[0]);
      ResolveStep(w, inst, ns[0], f);
      var g := GetSlot(w, inst, ns[0], f);
      assert forall n :: n in rest ==> SlotState(g.w, inst, d, n) == (None, None);
      ResolveAllReports(g.w, inst, fields, rest);
      if g.Ok? && DefaultsAllocated(w, fields) {
        UnresolvedStable(w, g.w, fields, rest);
      }
    }
  }

  /** The check of the omitted names touches no slot outside `ns`. */
  lemma {:induction false} ResolveAllFrame(w: World, inst: Ref, fields: Fields, ns: seq<string>)
    requires WF(w) && IsRecord(w, inst) && BackingDict(w, inst).Some?
    requires forall n :: n in ns ==> n in Keys(fields)
    requires Unique(ns)
    requires forall n :: n in ns ==> SlotState(w, inst, BackingDict(w, inst).value, n) == (None, None)
    ensures var o := ResolveAll(w, inst, fields, ns);
            o.Ok? ==> OnlySlots(w, o.w, inst, BackingDict(w, inst).value, set n | n in ns)
    decreases |ns|
  {
    var d := BackingDict(w, inst).value;
    if |ns| == 0 {
      assert (set n | n in ns) == {};
    } else {
      var rest := ns[1..];
      UniqueSplit(ns);
      var f := FieldOf(fields, ns[0]);
      ResolveStep(w, inst, ns[0], f);
      var g := GetSlot(w, inst, ns[0], f);
      assert forall n :: n in rest ==> SlotState(g.w, inst, d, n) == (None, None);
      ResolveAllReports(g.w, inst, fields, rest);
      ResolveAllFrame(g.w, inst, fields, rest);
      var o := ResolveAll(g.w, inst, fields, rest);
      if g.Ok? {
        OnlySlotsTrans(w, g.w, o.w, inst, d, {ns[0]}, set n | n in rest);
      } else {
        assert OnlySlots(w, o.w, inst, d, set n | n in ns);
      }
    }
  }

  /** Every omitted name the check does not report ends up filled with its
      field's default. */
  lemma {:induction false} ResolveAllFills(w: World, inst: Ref, fields: Fields, ns: seq<string>)
    requires WF(w) && IsRecord(w, inst) && BackingDict(w, inst).Some?
    requires forall n :: n in ns ==> n in Keys(fields)
    requires Unique(ns)
    requires forall n :: n in ns ==> SlotState(w, inst, BackingDict(w, inst).value, n) == (None, None)
    ensures var o := ResolveAll(w, inst, fields, ns);
            o.Ok? ==>
              forall n :: n in ns && n !in o.value ==>
                Filled(o.w, inst, n, FieldOf(fields, n).kind) && TookDefault(o.w, inst, n, FieldOf(fields, n))
    decreases |ns|
  {
    var d := BackingDict(w, inst).value;
    if |ns| > 0 {
      var rest := ns[1..];
      UniqueSplit(ns);
      var f := FieldOf(fields, ns[0]);
      ResolveStep(w, inst, ns[0], f);
      var g := GetSlot(w, inst, ns[0], f);
      assert forall n :: n in rest ==> SlotState(g.w, inst, d, n) == (None, None);
      ResolveAllReports(g.w, inst, fields, rest);
      ResolveAllFrame(g.w, inst, fields, rest);
      ResolveAllFills(g.w, inst, fields, rest);
      if g.Ok? {
        var w' := ResolveAll(g.w, inst, fields, rest).w;
        FilledStable(g.w, w', inst, ns[0], f.kind);
        TookDefaultStable(g.w, w', inst, d, ns[0], f);
      }
    }
  }

  // ---------------------------------------------------------------------
  // Construction properties
  // ---------------------------------------------------------------------

  lemma {:induction false} ExtrasUnique(kw: Kwargs, names: set<string>)
    requires DistinctArgs(kw)
    ensures Unique(Extras(kw, names))
    decreases |kw|
  {
    if |kw| > 0 {
      ArgsSplit(kw);
      ExtrasUnique(kw[1..], names);
    }
  }

  lemma {:induction false} OmittedUnique(fields: Fields, kw: Kwargs)
    requires Distinct(fields)
    ensures Unique(Omitted(fields, kw))
    decreases |fields|
  {
    if |fields| > 0 {
      OmittedUnique(fields[1..], kw);
    }
  }

  lemma {:induction false} UnresolvedUnique(w: World, fields: Fields, ns: seq<string>)
    requires forall n :: n in ns ==> n in Keys(fields)
    requires Unique(ns)
    ensures Unique(Unresolved(w, fields, ns))
    decreases |ns|
  {
    if |ns| > 0 {
      var rest := ns[1..];
      UniqueSplit(ns);
      UnresolvedUnique(w, fields, rest);
    }
  }

  /** Sorting a list of names keeps its members and their uniqueness. */
  lemma SortedNames(ns: seq<string>)
    ensures Text.Sorted(Text.Sort(ns))
    ensures forall n :: n in Text.Sort(ns) <==> n in ns
    ensures Unique(ns) ==> Unique(Text.Sort(ns))
  {
    var r := Text.Sort(ns);
    assert forall n :: n in r <==> n in multiset(r);
    assert forall n :: n in ns <==> n in multiset(ns);
  }

  /** Undeclared keywords raise "Extra params" before anything is assigned,
      naming each undeclared keyword once, in sorted order; no other error
      of construction is an "Extra params". */
  lemma ConstructExtra(reg: Registry, w: World, cls: ClassId, kw: Kwargs)
    requires WF(w) && cls < |reg.classes| && ClassWF(reg, cls) && DistinctArgs(kw)
    ensures var o := Construct(reg, w, cls, kw);
            var names := reg.classes[cls].names;
            && (o.Err? && o.error.ExtraParams? <==> !(ArgNames(kw) <= names))
            && (o.Err? && o.error.ExtraParams? ==>
                  && Text.Sorted(o.error.names) && Unique(o.error.names)
                  && (forall n :: n in o.error.names <==> n in ArgNames(kw) && n !in names))
  {
    var names := reg.classes[cls].names;
    var extras := Extras(kw, names);
    ExtrasUnique(kw, names);
    SortedNames(extras);
    if !(ArgNames(kw) <= names) {
      var n :| n in ArgNames(kw) && n !in names;
      assert n in extras;
    }
  }

  /** After the assignment loop on a fresh record, every omitted slot is
      still absent from both stores. */
  lemma {:induction false} OmittedStillAbsent(reg: Registry, w: World, cls: ClassId, kw: Kwargs)
    requires WF(w) && cls < |reg.classes| && ClassWF(reg, cls)
    requires ArgNames(kw) <= reg.classes[cls].names && DistinctArgs(kw)
    ensures var (w2, d, inst) := Fresh(w, cls);
            var fields := reg.classes[cls].fields;
            var o := SetAll(reg, w2, inst, fields, kw);
            o.Ok? ==>
              && (forall p :: p in kw ==> Filled(o.w, inst, p.0, FieldOf(fields, p.0).kind) && o.w.heap[inst].cache[p.0] == p.1)
              && (forall n :: n in Omitted(fields, kw) ==> SlotState(o.w, inst, d, n) == (None, None))
              && (forall a :: a in o.w.heap[d].entries ==> a.Str? && a.s in ArgNames(kw))
  {
    var (w2, d, inst) := Fresh(w, cls);
    var fields := reg.classes[cls].fields;
    if SetAll(reg, w2, inst, fields, kw).Ok? {
      SetAllFills(reg, w2, inst, fields, kw);
    }
  }

  /** With every keyword declared, construction succeeds exactly when every
      keyword is assignable and no omitted slot is unresolvable; a refused
      keyword raises its setter's error, and otherwise "Missing params"
      names each unresolvable omitted slot once, in sorted order. */
  lemma {:induction false} PopulateOutcome(reg: Registry, w: World, cls: ClassId, kw: Kwargs)
    requires WF(w) && cls < |reg.classes| && ClassWF(reg, cls)
    requires ArgNames(kw) <= reg.classes[cls].names && DistinctArgs(kw)
    requires ArgsAllocated(w, kw) && DefaultsAllocated(w, reg.classes[cls].fields)
    ensures var o := Populate(reg, w, cls, kw);
            var fields := reg.classes[cls].fields;
            var missing := Unresolved(w, fields, Omitted(fields, kw));
            && (o.Ok? <==> Settable(reg, w, fields, kw) && missing == [])
            && (!Settable(reg, w, fields, kw) ==>
                  o.Err? && exists p :: p in kw && Setter(reg, w, FieldOf(fields, p.0), p.1) == Failure(o.error))
            && (o.Err? && o.error.MissingParams? <==> Settable(reg, w, fields, kw) && missing != [])
            && (o.Err? && o.error.MissingParams? ==> o.error.names == Text.Sort(missing))
  {
    SetAllOnFresh(reg, w, cls, kw);
    ResolveOnFresh(reg, w, cls, kw);
  }

  /** The assignment loop on the fresh record succeeds exactly when every
      keyword is assignable, and otherwise fails with one keyword's setter
      error. */
  lemma SetAllOnFresh(reg: Registry, w: World, cls: ClassId, kw: Kwargs)
    requires WF(w) && cls < |reg.classes| && ClassWF(reg, cls)
    requires ArgNames(kw) <= reg.classes[cls].names && ArgsAllocated(w, kw)
    ensures var (w2, d, inst) := Fresh(w, cls);
            var fields := reg.classes[cls].fields;
            var s := SetAll(reg, w2, inst, fields, kw);
            && (s.Ok? <==> Settable(reg, w, fields, kw))
            && (s.Err? ==> exists p :: p in kw && Setter(reg, w, FieldOf(fields, p.0), p.1) == Failure(s.error))
  {
    var fields := reg.classes[cls].fields;
    var (w2, d, inst) := Fresh(w, cls);
    GrowsExtends(w, w2);
    assert ArgsAllocated(w2, kw);
    SetAllSettable(reg, w2, inst, fields, kw);
    forall p | p in kw
      ensures Setter(reg, w2, FieldOf(fields, p.0), p.1) == Setter(reg, w, FieldOf(fields, p.0), p.1)
    {
      SetterStable(reg, w, w2, FieldOf(fields, p.0), p.1);
    }
  }

  /** After a successful assignment loop on the fresh record, the check of
      the omitted names succeeds and reports exactly the unresolvable ones. */
  lemma ResolveOnFresh(reg: Registry, w: World, cls: ClassId, kw: Kwargs)
    requires WF(w) && cls < |reg.classes| && ClassWF(reg, cls)
    requires ArgNames(kw) <= reg.classes[cls].names && DistinctArgs(kw)
    requires DefaultsAllocated(w, reg.classes[cls].fields)
    ensures var (w2, d, inst) := Fresh(w, cls);
            var fields := reg.classes[cls].fields;
            var s := SetAll(reg, w2, inst, fields, kw);
            var omitted := Omitted(fields, kw);
            s.Ok? && |omitted| > 0 ==>
              var r := ResolveAll(s.w, inst, fields, omitted);
              r.Ok? && r.value == Unresolved(w, fields, omitted)
  {
    var fields := reg.classes[cls].fields;
    var (w2, d, inst) := Fresh(w, cls);
    GrowsExtends(w, w2);
    var s := SetAll(reg, w2, inst, fields, kw);
    if s.Ok? {
      var omitted := Omitted(fields, kw);
      OmittedStillAbsent(reg, w, cls, kw);
      OmittedUnique(fields, kw);
      ResolveAllReports(s.w, inst, fields, omitted);
      ExtendsTrans(w, w2, s.w);
      UnresolvedStable(w, s.w, fields, omitted);
    }
  }

  /** With every keyword declared, construction is the assignment loop
      and the check of the omitted names. */
  lemma ConstructDeclared(reg: Registry, w: World, cls: ClassId, kw: Kwargs)
    requires WF(w) && cls < |reg.classes| && ClassWF(reg, cls)
    requires ArgNames(kw) <= reg.classes[cls].names
    ensures Construct(reg, w, cls, kw) == Populate(reg, w, cls, kw)
  {
  }

  /** The names "Missing params" reports: the omitted slots that cannot
      resolve, once each, sorted. */
  lemma MissingNames(w: World, fields: Fields, kw: Kwargs)
    requires Distinct(fields)
    ensures var missing := Unresolved(w, fields, Omitted(fields, kw));
            var ns := Text.Sort(missing);
            && (missing == [] <==> forall n :: n in Keys(fields) && n !in ArgNames(kw) ==> !GetterFails(w, FieldOf(fields, n), None))
            && Text.Sorted(ns) && Unique(ns)
            && (forall n :: n in ns <==> n in Keys(fields) && n !in ArgNames(kw) && GetterFails(w, FieldOf(fields, n), None))
  {
    var omitted := Omitted(fields, kw);
    var missing := Unresolved(w, fields, omitted);
    OmittedUnique(fields, kw);
    UnresolvedUnique(w, fields, omitted);
    SortedNames(missing);
    if missing != [] {
      assert missing[0] in missing;
    }
  }

  /** `cls(**kwargs)` succeeds exactly when every keyword is declared and
      assignable and every omitted slot can resolve without a value. */
  lemma ConstructSucceeds(reg: Registry, w: World, cls: ClassId, kw: Kwargs)
    requires WF(w) && cls < |reg.classes| && ClassWF(reg, cls) && DistinctArgs(kw)
    requires ArgsAllocated(w, kw) && DefaultsAllocated(w, reg.classes[cls].fields)
    ensures var info := reg.classes[cls];
            Construct(reg, w, cls, kw).Ok? <==>
              && ArgNames(kw) <= info.names
              && Settable(reg, w, info.fields, kw)
              && (forall n :: n in info.names && n !in ArgNames(kw) ==> !GetterFails(w, FieldOf(info.fields, n), None))
  {
    var info := reg.classes[cls];
    if ArgNames(kw) <= info.names {
      ConstructDeclared(reg, w, cls, kw);
      PopulateOutcome(reg, w, cls, kw);
      MissingNames(w, info.fields, kw);
    }
  }

  /** With every keyword declared, a keyword its setter refuses (a
      collection slot, or a value of the wrong type for a nested-object
      slot) makes construction raise that setter's error. */
  lemma ConstructSetError(reg: Registry, w: World, cls: ClassId, kw: Kwargs)
    requires WF(w) && cls < |reg.classes| && ClassWF(reg, cls) && DistinctArgs(kw)
    requires ArgsAllocated(w, kw) && DefaultsAllocated(w, reg.classes[cls].fields)
    requires ArgNames(kw) <= reg.classes[cls].names && !Settable(reg, w, reg.classes[cls].fields, kw)
    ensures var o := Construct(reg, w, cls, kw);
            o.Err? && exists p :: p in kw && Setter(reg, w, FieldOf(reg.classes[cls].fields, p.0), p.1) == Failure(o.error)
  {
    ConstructDeclared(reg, w, cls, kw);
    PopulateOutcome(reg, w, cls, kw);
  }

  /** "Missing params" names exactly the omitted slots that cannot resolve,
      once each, in sorted order; it is raised only when every keyword is
      declared and assignable. */
  lemma ConstructMissing(reg: Registry, w: World, cls: ClassId, kw: Kwargs)
    requires WF(w) && cls < |reg.classes| && ClassWF(reg, cls) && DistinctArgs(kw)
    requires ArgsAllocated(w, kw) && DefaultsAllocated(w, reg.classes[cls].fields)
    ensures var o := Construct(reg, w, cls, kw);
            var info := reg.classes[cls];
            o.Err? && o.error.MissingParams? ==>
              && ArgNames(kw) <= info.names && Settable(reg, w, info.fields, kw)
              && Text.Sorted(o.error.names) && Unique(o.error.names)
              && (forall n :: n in o.error.names <==>
                    n in info.names && n !in ArgNames(kw) && GetterFails(w, FieldOf(info.fields, n), None))
  {
    var info := reg.classes[cls];
    if ArgNames(kw) <= info.names {
      ConstructDeclared(reg, w, cls, kw);
      PopulateOutcome(reg, w, cls, kw);
      MissingNames(w, info.fields, kw);
    } else {
      ConstructExtra(reg, w, cls, kw);
    }
  }

  /** A constructed record has every declared slot filled, each keyword's
      slot caching the keyword's value; its `_plain_` is a new dict holding
      exactly the declared names (every object that existed before is
      unchanged, by the contract of `Construct`). */
  lemma ConstructFills(reg: Registry, w: World, cls: ClassId, kw: Kwargs)
    requires WF(w) && cls < |reg.classes| && ClassWF(reg, cls) && DistinctArgs(kw)
    requires Construct(reg, w, cls, kw).Ok?
    ensures var o := Construct(reg, w, cls, kw);
            var info := reg.classes[cls];
            var inst := o.value;
            && BackingDict(o.w, inst).Some? && BackingDict(o.w, inst).value !in w.heap
            && Populated(o.w, inst, BackingDict(o.w, inst).value, info, kw)
  {
    var info := reg.classes[cls];
    assert ArgNames(kw) <= info.names by {
      var extras := Extras(kw, info.names);
      assert |extras| == 0;
    }
    ConstructDeclared(reg, w, cls, kw);
    if |Omitted(info.fields, kw)| > 0 {
      PopulateFillsChecked(reg, w, cls, kw);
    } else {
      PopulateFillsUnchecked(reg, w, cls, kw);
    }
  }

  /** An omitted collection slot of a new record holds a new empty proxy. */
  lemma ConstructEmptyView(reg: Registry, w: World, cls: ClassId, kw: Kwargs, n: string)
    requires WF(w) && cls < |reg.classes| && ClassWF(reg, cls) && DistinctArgs(kw)
    requires Construct(reg, w, cls, kw).Ok?
    requires n in reg.classes[cls].names && n !in ArgNames(kw)
    requires !FieldOf(reg.classes[cls].fields, n).kind.Simple? && !FieldOf(reg.classes[cls].fields, n).kind.Comp?
    ensures var o := Construct(reg, w, cls, kw);
            && IsRecord(o.w, o.value) && n in o.w.heap[o.value].cache
            && EmptyView(o.w, o.w.heap[o.value].cache[n], FieldOf(reg.classes[cls].fields, n).kind)
  {
    var o := Construct(reg, w, cls, kw);
    var f := FieldOf(reg.classes[cls].fields, n);
    ConstructFills(reg, w, cls, kw);
    assert Filled(o.w, o.value, n, f.kind);
    assert TookDefault(o.w, o.value, n, f);
  }

  /** `ConstructFills` when some declared name was omitted. */
  lemma PopulateFillsChecked(reg: Registry, w: World, cls: ClassId, kw: Kwargs)
    requires WF(w) && cls < |reg.classes| && ClassWF(reg, cls) && DistinctArgs(kw)
    requires ArgNames(kw) <= reg.classes[cls].names && |Omitted(reg.classes[cls].fields, kw)| > 0
    requires Populate(reg, w, cls, kw).Ok?
    ensures var o := Populate(reg, w, cls, kw);
            && BackingDict(o.w, o.value).Some? && BackingDict(o.w, o.value).value !in w.heap
            && Populated(o.w, o.value, BackingDict(o.w, o.value).value, reg.classes[cls], kw)
  {
    var info := reg.classes[cls];
    var fields := info.fields;
    var (w2, d, inst) := Fresh(w, cls);
    GrowsExtends(w, w2);
    var s := SetAll(reg, w2, inst, fields, kw);
    OmittedStillAbsent(reg, w, cls, kw);
    var omitted := Omitted(fields, kw);
    OmittedUnique(fields, kw);
    ResolveAllReports(s.w, inst, fields, omitted);
    ResolveAllFrame(s.w, inst, fields, omitted);
    ResolveAllFills(s.w, inst, fields, omitted);
    var r := ResolveAll(s.w, inst, fields, omitted);
    assert Populate(reg, w, cls, kw) == Ok(r.w, inst);
    FilledAfterResolve(s.w, r.w, inst, d, info, kw, omitted);
  }

  /** `ConstructFills` when every declared name was supplied. */
  lemma PopulateFillsUnchecked(reg: Registry, w: World, cls: ClassId, kw: Kwargs)
    requires WF(w) && cls < |reg.classes| && ClassWF(reg, cls) && DistinctArgs(kw)
    requires ArgNames(kw) <= reg.classes[cls].names && |Omitted(reg.classes[cls].fields, kw)| == 0
    requires Populate(reg, w, cls, kw).Ok?
    ensures var o := Populate(reg, w, cls, kw);
            && BackingDict(o.w, o.value).Some? && BackingDict(o.w, o.value).value !in w.heap
            && Populated(o.w, o.value, BackingDict(o.w, o.value).value, reg.classes[cls], kw)
  {
    var info := reg.classes[cls];
    var fields := info.fields;
    var (w2, d, inst) := Fresh(w, cls);
    GrowsExtends(w, w2);
    var s := SetAll(reg, w2, inst, fields, kw);
    OmittedStillAbsent(reg, w, cls, kw);
    assert Populate(reg, w, cls, kw) == Ok(s.w, inst);
    assert forall n :: n in info.names ==> n in ArgNames(kw) by {
      forall n | n in info.names ensures n in ArgNames(kw) {
        assert n in ArgNames(kw) || n in Omitted(fields, kw);
      }
    }
    forall n | n in info.names ensures Filled(s.w, inst, n, FieldOf(fields, n).kind) {
      var p :| p in kw && p.0 == n;
    }
  }

  /** The record after the check of the omitted names, given what the
      assignment loop left (`w`) and what the check did (`w'`). */
  lemma FilledAfterResolve(w: World, w': World, inst: Ref, d: Ref, info: ClassInfo, kw: Kwargs, omitted: seq<string>)
    requires Extends(w, w') && IsRecord(w, inst) && IsRecord(w', inst) && IsDict(w, d) && IsDict(w', d)
    requires BackingDict(w, inst) == Some(d) && BackingDict(w', inst) == Some(d)
    requires info.names == Keys(info.fields) && ArgNames(kw) <= info.names
    requires forall n :: n in omitted <==> n in info.names && n !in ArgNames(kw)
    requires forall p :: p in kw ==> Filled(w, inst, p.0, FieldOf(info.fields, p.0).kind) && w.heap[inst].cache[p.0] == p.1
    requires forall a :: a in w.heap[d].entries ==> a.Str? && a.s in ArgNames(kw)
    requires OnlySlots(w, w', inst, d, set n | n in omitted)
    requires forall n :: n in omitted ==>
               Filled(w', inst, n, FieldOf(info.fields, n).kind) && TookDefault(w', inst, n, FieldOf(info.fields, n))
    ensures Populated(w', inst, d, info, kw)
  {
    var fields, names := info.fields, info.names;
    KeywordsStayFilled(w, w', inst, fields, kw, set n | n in omitted);
    forall n | n in names ensures Filled(w', inst, n, FieldOf(fields, n).kind)
    {
      if n in ArgNames(kw) {
        var p :| p in kw && p.0 == n;
      }
    }
    forall a ensures a in w'.heap[d].entries <==> a.Str? && a.s in names
    {
      if a.Str? && a.s in names {
        assert Filled(w', inst, a.s, FieldOf(fields, a.s).kind);
      }
    }
  }

  /** Slots of the keywords stay filled with the keywords' values while only
      other slots change. */
  lemma KeywordsStayFilled(w: World, w': World, inst: Ref, fields: Fields, kw: Kwargs, ns: set<string>)
    requires Extends(w, w') && IsRecord(w, inst) && IsRecord(w', inst)
    requires BackingDict(w, inst).Some? && BackingDict(w', inst) == BackingDict(w, inst)
    requires ArgNames(kw) <= Keys(fields) && ArgNames(kw) !! ns
    requires OnlySlots(w, w', inst, BackingDict(w, inst).value, ns)
    requires forall p :: p in kw ==> Filled(w, inst, p.0, FieldOf(fields, p.0).kind) && w.heap[inst].cache[p.0] == p.1
    ensures forall p :: p in kw ==> Filled(w', inst, p.0, FieldOf(fields, p.0).kind) && w'.heap[inst].cache[p.0] == p.1
  {
    forall p | p in kw
      ensures Filled(w', inst, p.0, FieldOf(fields, p.0).kind) && w'.heap[inst].cache[p.0] == p.1
    {
      assert p.0 in ArgNames(kw);
      FilledStable(w, w', inst, p.0, FieldOf(fields, p.0).kind);
    }
  }

  /** A nested record passed as a keyword is shared, not copied: the new
      record's plain dict holds that record's very `_plain_` under the
      keyword's name. */
  lemma ConstructSharesNested(reg: Registry, w: World, cls: ClassId, kw: Kwargs, p: (string, Value))
    requires WF(w) && cls < |reg.classes| && ClassWF(reg, cls) && DistinctArgs(kw)
    requires Construct(reg, w, cls, kw).Ok?
    requires p in kw && p.1.Obj? && IsRecord(w, p.1.ref)
    requires p.0 in Keys(reg.classes[cls].fields) && FieldOf(reg.classes[cls].fields, p.0).kind.Comp?
    ensures var o := Construct(reg, w, cls, kw);
            && BackingDict(o.w, o.value).Some? && IsRecord(o.w, p.1.ref)
            && Raw(o.w, BackingDict(o.w, o.value).value, p.0) == Some(AsPlain(o.w, p.1.ref))
            && AsPlain(o.w, p.1.ref) == AsPlain(w, p.1.ref)
  {
    ConstructFills(reg, w, cls, kw);
  }

  // ---------------------------------------------------------------------
  // from_plain / as_plain properties
  // ---------------------------------------------------------------------

  /** `cls.from_plain(v).as_plain() is v`. */
  lemma PlainRoundTrip(w: World, cls: ClassId, plain: Value)
    requires WF(w)
    ensures var (w', r) := FromPlain(w, cls, plain);
            IsRecord(w', r) && AsPlain(w', r) == plain
  {
  }

  /** `as_plain()` returns the same object for the record's whole life,
      whatever is done to it or through it. */
  lemma AsPlainStable(w: World, w': World, inst: Ref)
    requires Extends(w, w') && IsRecord(w, inst)
    ensures IsRecord(w', inst) && AsPlain(w', inst) == AsPlain(w, inst)
  {
    assert Stable(w.heap[inst], w'.heap[inst]);
  }

  /** Re-reading a filled slot from the plain tree: a record adopting
      another record's `_plain_` decodes a simple slot to the same value and
      a nested-object slot to a record over the same sub-tree (or `None`
      when `None` was persisted). */
  lemma {:induction false} RereadFromPlain(w: World, cls: ClassId, inst: Ref, n: string, f: FieldDecl)
    requires WF(w) && IsRecord(w, inst) && Filled(w, inst, n, f.kind)
    requires f.kind.Simple? || f.kind.Comp?
    ensures var (w1, r) := FromPlain(w, cls, AsPlain(w, inst));
            var o := GetSlot(w1, r, n, f);
            var v := w.heap[inst].cache[n];
            && o.Ok?
            && (f.kind.Simple? ==> o.value == v)
            && (f.kind.Comp? && v == Null ==> o.value == Null)
            && (f.kind.Comp? && v != Null && PlainOf(w, v) != Some(Null) ==>
                  PlainOf(o.w, o.value) == PlainOf(w, v))
  {
    var (w1, r) := FromPlain(w, cls, AsPlain(w, inst));
    var d := BackingDict(w, inst).value;
    GrowsExtends(w, w1);
    assert BackingDict(w1, r) == Some(d);
    GetSlotResolves(w1, r, n, f);
  }

  /** `from_plain` checks nothing: over a value that is neither a dict nor
      a dict proxy every slot read raises, and a slot write raises after the
      decoded value has already been cached. */
  lemma FromPlainNotMapping(reg: Registry, w: World, cls: ClassId, plain: Value, n: string, f: FieldDecl, v: Value)
    requires WF(w) && !(plain.Obj? && IsDict(w, plain.ref))
    requires !(plain.Obj? && plain.ref in w.heap && w.heap[plain.ref].DictProxy?)
    ensures var (w1, r) := FromPlain(w, cls, plain);
            && GetSlot(w1, r, n, f) == Err(w1, NotAMapping)
            && (Setter(reg, w1, f, v).Success? ==>
                  var o := SetSlot(reg, w1, r, n, f, v);
                  o.Err? && o.error == NotAMapping && o.w.heap[r].cache == map[n := v])
  {
  }
}

=== FILE: scenarios.dfy ===
/**
 * The repository's own usage examples, stated over the model: the classes
 * of its basic and inheritance tests and what constructing them yields.
 */
module Scenarios {
  import opened Wrappers
  import opened Heap
  import opened Schema
  import opened Slots
  import opened Records
  import Text
  import Dicts
  import Lists

  /** `class A(Component): a = Field(); b = Field()`. */
  const BasicBody: seq<Stmt> :=
    [Assign("a", FieldItem(FieldDecl(0, Simple, NoDefault))),
     Assign("b", FieldItem(FieldDecl(1, Simple, NoDefault)))]

  const Basic: Declared := DeclareClass(Initial(), [ComponentBase(0)], BasicBody)

  lemma {:induction false} CountAll(ns: seq<string>, x: string)
    requires forall n :: n in ns ==> n == x
    ensures multiset(ns)[x] == |ns|
    decreases |ns|
  {
    if |ns| > 0 {
      assert ns == [ns[0]] + ns[1..];
      assert ns[0] in ns;
      assert forall n :: n in ns[1..] ==> n in ns;
      CountAll(ns[1..], x);
    }
  }

  /** A list with no repeats whose only member is `x` is `[x]`. */
  lemma OnlyName(ns: seq<string>, x: string)
    requires Unique(ns) && forall n :: n in ns <==> n == x
    ensures ns == [x]
  {
    CountAll(ns, x);
    assert x in ns;
    assert ns[0] in ns;
  }

  /** The class is registered after `Component`, its `_names_` are the two
      declared names and its `_fields_` keep declaration order. */
  lemma BasicClass()
    ensures Basic.result == Success(1)
    ensures RegistryWF(Basic.reg)
    ensures Basic.reg.classes[1].names == {"a", "b"}
    ensures Basic.reg.classes[1].fields ==
              [("a", FieldDecl(0, Simple, NoDefault)), ("b", FieldDecl(1, Simple, NoDefault))]
  {
    DeclarePreservesWF(Initial(), [ComponentBase(0)], BasicBody);
  }

  /** The fields of class A. */
  const BasicFieldsOf: Fields :=
    [("a", FieldDecl(0, Simple, NoDefault)), ("b", FieldDecl(1, Simple, NoDefault))]

  /** A class at id `c` whose fields are two simple fields a and b, as
      declared (field objects 0 and 1, no defaults). */
  predicate HasFieldsAB(reg: Registry, c: ClassId)
  {
    && c < |reg.classes| && ClassWF(reg, c)
    && reg.classes[c].fields == BasicFieldsOf && reg.classes[c].names == {"a", "b"}
  }

  /** Class A at id 1 of some registry. */
  predicate HasBasic(reg: Registry)
  {
    |reg.classes| == 2 && HasFieldsAB(reg, 1)
  }

  lemma BasicFacts(reg: Registry, c: ClassId, w: World)
    requires HasFieldsAB(reg, c)
    ensures Keys(reg.classes[c].fields) == {"a", "b"}
    ensures FieldOf(reg.classes[c].fields, "a") == FieldDecl(0, Simple, NoDefault)
    ensures FieldOf(reg.classes[c].fields, "b") == FieldDecl(1, Simple, NoDefault)
    ensures DefaultsAllocated(w, reg.classes[c].fields)
  {
  }

  /** Constructing such a class with both keywords succeeds and reads back
      both values. */
  lemma ConstructAB(reg: Registry, w: World, c: ClassId, va: Value, vb: Value)
    requires WF(w) && HasFieldsAB(reg, c) && Allocated(w, va) && Allocated(w, vb)
    ensures var ok := Construct(reg, w, c, [("a", va), ("b", vb)]);
            && ok.Ok?
            && GetSlot(ok.w, ok.value, "a", FieldDecl(0, Simple, NoDefault)) == Ok(ok.w, va)
            && GetSlot(ok.w, ok.value, "b", FieldDecl(1, Simple, NoDefault)) == Ok(ok.w, vb)
  {
    BasicFacts(reg, c, w);
    var fields := reg.classes[c].fields;
    var kw := [("a", va), ("b", vb)];
    assert kw[0] in kw && kw[1] in kw;
    assert ArgNames(kw) == {"a", "b"};
    assert Settable(reg, w, fields, kw);
    ConstructSucceeds(reg, w, c, kw);
    ConstructFills(reg, w, c, kw);
  }

  /** `A(a=1, b='b')` reads back both values. */
  lemma BasicConstructOk(reg: Registry, w: World)
    requires WF(w) && HasBasic(reg)
    ensures var ok := Construct(reg, w, 1, [("a", Prim(Num(1))), ("b", Prim(Str("b")))]);
            && ok.Ok?
            && GetSlot(ok.w, ok.value, "a", FieldDecl(0, Simple, NoDefault)) == Ok(ok.w, Prim(Num(1)))
            && GetSlot(ok.w, ok.value, "b", FieldDecl(1, Simple, NoDefault)) == Ok(ok.w, Prim(Str("b")))
  {
    ConstructAB(reg, w, 1, Prim(Num(1)), Prim(Str("b")));
  }

  /** `A(z=1)` raises "Extra params: 'z'". */
  lemma BasicConstructExtra(reg: Registry, w: World)
    requires WF(w) && HasBasic(reg)
    ensures var o := Construct(reg, w, 1, [("z", Prim(Num(1)))]);
            o.Err? && Message(o.error) == Some("Extra params: 'z'")
  {
    var kz := [("z", Prim(Num(1)))];
    assert kz[0] in kz;
    assert ArgNames(kz) == {"z"};
    ConstructExtra(reg, w, 1, kz);
    var o := Construct(reg, w, 1, kz);
    assert "z" !in reg.classes[1].names;
    assert o.Err? && o.error.ExtraParams?;
    OnlyName(o.error.names, "z");
    assert Text.Join(["z"], ", ") == "z";
    assert "Extra params: '" + "z" + "'" == "Extra params: 'z'";
  }

  /** Omitting `b` leaves exactly `b` unresolvable. */
  lemma BasicOmitB(reg: Registry, w: World)
    requires HasBasic(reg)
    ensures var fields := reg.classes[1].fields;
            var ka := [("a", Prim(Num(1)))];
            && ArgNames(ka) <= reg.classes[1].names
            && Omitted(fields, ka) == ["b"]
            && Unresolved(w, fields, Omitted(fields, ka)) == ["b"]
            && DistinctArgs(ka) && ArgsAllocated(w, ka) && DefaultsAllocated(w, fields)
            && Settable(reg, w, fields, ka)
  {
    BasicFacts(reg, 1, w);
    var ka := [("a", Prim(Num(1)))];
    assert ka[0] in ka;
    assert ArgNames(ka) == {"a"};
  }

  /** With every keyword declared and assignable and a single unresolvable
      omitted slot `x`, construction raises "Missing params: 'x'". */
  lemma SingleMissing(reg: Registry, w: World, cls: ClassId, kw: Kwargs, x: string)
    requires WF(w) && cls < |reg.classes| && ClassWF(reg, cls)
    requires ArgNames(kw) <= reg.classes[cls].names && DistinctArgs(kw)
    requires ArgsAllocated(w, kw) && DefaultsAllocated(w, reg.classes[cls].fields)
    requires Settable(reg, w, reg.classes[cls].fields, kw)
    requires Unresolved(w, reg.classes[cls].fields, Omitted(reg.classes[cls].fields, kw)) == [x]
    ensures Construct(reg, w, cls, kw) == Err(w, MissingParams([x]))
    ensures Message(MissingParams([x])) == Some("Missing params: '" + x + "'")
  {
    ConstructDeclared(reg, w, cls, kw);
    PopulateOutcome(reg, w, cls, kw);
    SortSingle(x);
  }

  lemma SortSingle(x: string)
    ensures Text.Sort([x]) == [x]
  {
  }

  /** `A(a=1)` raises "Missing params: 'b'". */
  lemma BasicConstructMissing(reg: Registry, w: World, kw: Kwargs)
    requires WF(w) && HasBasic(reg) && kw == [("a", Prim(Num(1)))]
    ensures var o := Construct(reg, w, 1, kw);
            o.Err? && Message(o.error) == Some("Missing params: 'b'")
  {
    BasicOmitB(reg, w);
    SingleMissing(reg, w, 1, kw, "b");
    MissingBMessage();
  }

  lemma MissingBMessage()
    ensures Message(MissingParams(["b"])) == Some("Missing params: 'b'")
  {
    assert Text.Join(["b"], ", ") == "b";
    assert "Missing params: '" + "b" + "'" == "Missing params: 'b'";
  }

  /** The defined class is such a class. */
  lemma BasicIsDeclared()
    ensures Basic.result == Success(1) && HasBasic(Basic.reg)
  {
    BasicClass();
  }

  /** `class A(Component): a = Field()` then `class B(A): b = Field()`. */
  const InheritA: Declared :=
    DeclareClass(Initial(), [ComponentBase(0)], [Assign("a", FieldItem(FieldDecl(0, Simple, NoDefault)))])
  const InheritB: Declared :=
    DeclareClass(InheritA.reg, [ComponentBase(1)], [Assign("b", FieldItem(FieldDecl(1, Simple, NoDefault)))])

  /** A's `_names_` is {'a'}; B inherits it and adds its own: {'a', 'b'};
      and every B is an A. */
  lemma InheritNames()
    ensures InheritA.result == Success(1) && InheritA.reg.classes[1].names == {"a"}
    ensures InheritB.result == Success(2) && InheritB.reg.classes[2].names == {"a", "b"}
    ensures IsSubclass(InheritB.reg, 2, 1)
    ensures RegistryWF(InheritB.reg)
  {
    InheritARegistry();
    InheritBRegistry();
    DeclarePreservesWF(Initial(), [ComponentBase(0)], [Assign("a", FieldItem(FieldDecl(0, Simple, NoDefault)))]);
    DeclarePreservesWF(InheritA.reg, [ComponentBase(1)], [Assign("b", FieldItem(FieldDecl(1, Simple, NoDefault)))]);
    DeclareSubclass(InheritA.reg, [ComponentBase(1)], [Assign("b", FieldItem(FieldDecl(1, Simple, NoDefault)))], 1);
  }

  /** The registry after defining A. */
  lemma InheritARegistry()
    ensures InheritA.result == Success(1)
    ensures InheritA.reg.classes == Initial().classes + [ClassInfo([0], [("a", FieldDecl(0, Simple, NoDefault))], {"a"})]
    ensures InheritA.reg.bound == map[0 := "a"]
  {
    var fa := FieldDecl(0, Simple, NoDefault);
    assert Inherit(Initial(), [ComponentBase(0)]) == [];
    assert ComponentBases([ComponentBase(0)]) == [0];
    assert Layer(map[], [], [Assign("a", FieldItem(fa))]) == Layered(map[0 := "a"], [("a", fa)], None);
    assert Keys([("a", fa)]) == {"a"};
  }

  /** The registry after defining B on top of A. */
  lemma InheritBRegistry()
    ensures InheritB.result == Success(2)
    ensures InheritB.reg.classes == InheritA.reg.classes + [ClassInfo([1], BasicFieldsOf, {"a", "b"})]
    ensures InheritB.reg.bound == map[0 := "a", 1 := "b"]
  {
    InheritARegistry();
    var fa := FieldDecl(0, Simple, NoDefault);
    var fb := FieldDecl(1, Simple, NoDefault);
    var regA := InheritA.reg;
    assert Inherit(regA, [ComponentBase(1)]) == [("a", fa)] by {
      assert Inherit(regA, []) == [];
      assert BaseFields(regA, ComponentBase(1)) == [("a", fa)];
    }
    assert ComponentBases([ComponentBase(1)]) == [1];
    assert Put([("a", fa)], "b", fb) == BasicFieldsOf;
    assert Layer(regA.bound, [("a", fa)], [Assign("b", FieldItem(fb))])
        == Layered(map[0 := "a", 1 := "b"], BasicFieldsOf, None);
    assert Keys(BasicFieldsOf) == {"a", "b"};
  }

  /** A registry whose class 2 is B, as defined above. */
  lemma FieldsABAt2(reg: Registry)
    requires |reg.classes| == 3 && reg.classes[2] == ClassInfo([1], BasicFieldsOf, {"a", "b"})
    requires reg.bound == map[0 := "a", 1 := "b"]
    ensures HasFieldsAB(reg, 2)
  {
    assert Keys(BasicFieldsOf) == {"a", "b"};
    assert Distinct(BasicFieldsOf);
  }

  /** B's `_fields_` is A's field followed by its own. */
  lemma InheritFields()
    ensures HasFieldsAB(InheritB.reg, 2)
  {
    InheritBRegistry();
    FieldsABAt2(InheritB.reg);
  }

  /** `B(a=1, b=2)` reads back both values, the inherited one included. */
  lemma InheritConstructOk(w: World)
    requires WF(w)
    ensures HasFieldsAB(InheritB.reg, 2)
    ensures var ok := Construct(InheritB.reg, w, 2, [("a", Prim(Num(1))), ("b", Prim(Num(2)))]);
            && ok.Ok?
            && GetSlot(ok.w, ok.value, "a", FieldDecl(0, Simple, NoDefault)) == Ok(ok.w, Prim(Num(1)))
            && GetSlot(ok.w, ok.value, "b", FieldDecl(1, Simple, NoDefault)) == Ok(ok.w, Prim(Num(2)))
  {
    InheritFields();
    ConstructAB(InheritB.reg, w, 2, Prim(Num(1)), Prim(Num(2)));
  }

  /** `B()` for `class B(Component): a = FieldDict(A)`: an omitted dict slot
      holds an empty proxy, so `len(r.a) == 0`. */
  lemma OmittedDictEmpty(reg: Registry, w: World, cls: ClassId, kw: Kwargs, n: string)
    requires WF(w) && cls < |reg.classes| && ClassWF(reg, cls) && DistinctArgs(kw)
    requires Construct(reg, w, cls, kw).Ok?
    requires n in reg.classes[cls].names && n !in ArgNames(kw)
    requires FieldOf(reg.classes[cls].fields, n).kind.DictOf?
    ensures var o := Construct(reg, w, cls, kw);
            && n in o.w.heap[o.value].cache
            && var v := o.w.heap[o.value].cache[n];
               && v.Obj? && Dicts.IsDictProxy(o.w, v.ref)
               && Dicts.Len(o.w, v.ref) == 0 && Dicts.Memo(o.w, v.ref) == map[]
  {
    ConstructEmptyView(reg, w, cls, kw, n);
  }

  /** `B()` for `class B(Component): a = FieldList(A)`: an omitted list slot
      holds an empty, not yet decoded proxy, so `len(r.a) == 0`. */
  lemma OmittedListEmpty(reg: Registry, w: World, cls: ClassId, kw: Kwargs, n: string)
    requires WF(w) && cls < |reg.classes| && ClassWF(reg, cls) && DistinctArgs(kw)
    requires Construct(reg, w, cls, kw).Ok?
    requires n in reg.classes[cls].names && n !in ArgNames(kw)
    requires FieldOf(reg.classes[cls].fields, n).kind.ListOf?
    ensures var o := Construct(reg, w, cls, kw);
            && n in o.w.heap[o.value].cache
            && var v := o.w.heap[o.value].cache[n];
               && v.Obj? && Lists.IsListProxy(o.w, v.ref)
               && Lists.Len(o.w, v.ref) == 0 && o.w.heap[v.ref].shadow.None?
  {
    ConstructEmptyView(reg, w, cls, kw, n);
  }
}

=== FILE: schema.dfy ===
/**
 * The schema registry: field descriptors, the per-class field table
 * (`_fields_`, an ordered name-to-field map) and name set (`_names_`), and the
 * class-definition step that `Namespace` and `ComponentMeta` perform, written
 * as an explicit builder over an append-only sequence of classes.
 */
module Schema {
  import opened Wrappers
  import opened Heap

  /** Identity of a field descriptor object (`Field(...)` is a Python object). */
  type FieldId = nat

  /** `Field`, `FieldComp(type)`, `FieldDict(type)` and `FieldList(type)`. */
  datatype Kind = Simple | Comp(target: ClassId) | DictOf(elem: ClassId) | ListOf(elem: ClassId)

  /** The `default=` argument; `NoDefault` is the source's `sentinel`. */
  datatype Default = NoDefault | DefaultTo(value: Value)

  datatype FieldDecl = FieldDecl(id: FieldId, kind: Kind, default: Default)

  /** An insertion-ordered dict from slot name to field descriptor. */
  type Fields = seq<(string, FieldDecl)>

  /** One record type: its component bases, `_fields_` and `_names_`. */
  datatype ClassInfo = ClassInfo(bases: seq<ClassId>, fields: Fields, names: set<string>)

  /** All record types defined so far (a class's id is its position, so its
      bases precede it) and the name each field descriptor was bound to. */
  datatype Registry = Registry(classes: seq<ClassInfo>, bound: map<FieldId, string>)

  /** A base class of a new class: a record type or some other class. */
  datatype Base = ComponentBase(id: ClassId) | OtherBase

  /** A class-body value: a field descriptor or any other attribute. */
  datatype Item = FieldItem(field: FieldDecl) | Attribute

  /** A class-body statement: a binding or a `del`. */
  datatype Stmt = Assign(name: string, item: Item) | Delete(name: string)

  function Keys(fs: Fields): set<string>
  {
    if |fs| == 0 then {} else {fs[0].0} + Keys(fs[1..])
  }

  predicate Distinct(fs: Fields)
  {
    |fs| == 0 || (fs[0].0 !in Keys(fs[1..]) && Distinct(fs[1..]))
  }

  /** `fields.get(k)`. */
  function Lookup(fs: Fields, k: string): (r: Option<FieldDecl>)
    ensures r.Some? <==> k in Keys(fs)
    ensures r.Some? ==> (k, r.value) in fs
  {
    if |fs| == 0 then None else if fs[0].0 == k then Some(fs[0].1) else Lookup(fs[1..], k)
  }

  /** `fields[k] = f` on a dict: an existing key keeps its position and takes
      the new value; a new key goes at the end. */
  function Put(fs: Fields, k: string, f: FieldDecl): (r: Fields)
    ensures Keys(r) == Keys(fs) + {k}
    ensures Lookup(r, k) == Some(f)
    ensures forall k' :: k' != k ==> Lookup(r, k') == Lookup(fs, k')
    ensures Distinct(fs) ==> Distinct(r)
    ensures k in Keys(fs) ==> |r| == |fs| && forall i :: 0 <= i < |fs| ==> r[i].0 == fs[i].0
    ensures k !in Keys(fs) ==> r == fs + [(k, f)]
    ensures forall p :: p in r ==> p == (k, f) || p in fs
  {
    if |fs| == 0 then [(k, f)]
    else if fs[0].0 == k then [(k, f)] + fs[1..]
    else [fs[0]] + Put(fs[1..], k, f)
  }

  /** The keys of `gs` that are not in `known`, in order of first occurrence. */
  function NewKeys(known: set<string>, gs: Fields): (ks: seq<string>)
    ensures forall k :: k in ks <==> k in Keys(gs) && k !in known
    decreases |gs|
  {
    if |gs| == 0 then []
    else if gs[0].0 in known then NewKeys(known, gs[1..])
    else [gs[0].0] + NewKeys(known + {gs[0].0}, gs[1..])
  }

  /** `fields.update(gs)`: every entry of `gs` put in order. */
  function Merge(fs: Fields, gs: Fields): (r: Fields)
    ensures Keys(r) == Keys(fs) + Keys(gs)
    ensures Distinct(fs) ==> Distinct(r)
    ensures Distinct(gs) ==> forall k :: Lookup(r, k) == if k in Keys(gs) then Lookup(gs, k) else Lookup(fs, k)
    ensures forall p :: p in r ==> p in fs || p in gs
    decreases |gs|
  {
    if |gs| == 0 then fs
    else
      var r := Merge(Put(fs, gs[0].0, gs[0].1), gs[1..]);
      assert forall p :: p in gs[1..] ==> p in gs;
      r
  }

  /** The keys of a table, in order. */
  function KeySeq(fs: Fields): (ks: seq<string>)
    ensures |ks| == |fs| && forall i :: 0 <= i < |fs| ==> ks[i] == fs[i].0
  {
    seq(|fs|, i requires 0 <= i < |fs| => fs[i].0)
  }

  /** Assigning a key keeps the key order, appending a new key. */
  lemma PutKeySeq(fs: Fields, k: string, f: FieldDecl)
    ensures KeySeq(Put(fs, k, f)) == if k in Keys(fs) then KeySeq(fs) else KeySeq(fs) + [k]
  {
    var r, ks, kr := Put(fs, k, f), KeySeq(fs), KeySeq(Put(fs, k, f));
    if k in Keys(fs) {
      assert |kr| == |ks| && forall i :: 0 <= i < |ks| ==> kr[i] == ks[i];
    } else {
      assert r == fs + [(k, f)];
      assert |kr| == |ks + [k]| && forall i :: 0 <= i < |kr| ==> kr[i] == (ks + [k])[i];
    }
  }

  lemma NewKeysStep(known: set<string>, gs: Fields)
    requires |gs| > 0
    ensures NewKeys(known, gs) ==
              if gs[0].0 in known then NewKeys(known, gs[1..]) else [gs[0].0] + NewKeys(known + {gs[0].0}, gs[1..])
  {
  }

  /** `dict.update` keeps the order of a dict: existing keys keep their
      places and new keys follow, in update order. */
  lemma {:induction false} MergePositions(fs: Fields, gs: Fields)
    ensures KeySeq(Merge(fs, gs)) == KeySeq(fs) + NewKeys(Keys(fs), gs)
    decreases |gs|
  {
    if |gs| > 0 {
      var k := gs[0].0;
      var fs' := Put(fs, k, gs[0].1);
      MergePositions(fs', gs[1..]);
      assert Merge(fs, gs) == Merge(fs', gs[1..]);
      PutKeySeq(fs, k, gs[0].1);
      NewKeysStep(Keys(fs), gs);
      var ks, ks' := KeySeq(fs), KeySeq(fs');
      var rest := NewKeys(Keys(fs'), gs[1..]);
      assert KeySeq(Merge(fs, gs)) == ks' + rest;
      if k in Keys(fs) {
        assert Keys(fs') == Keys(fs);
        assert ks' == ks && NewKeys(Keys(fs), gs) == rest;
      } else {
        assert Keys(fs') == Keys(fs) + {k};
        assert ks' == ks + [k] && NewKeys(Keys(fs), gs) == [k] + rest;
        assert ks + [k] + rest == ks + ([k] + rest);
      }
    }
  }

  predicate BasesKnown(reg: Registry, bases: seq<Base>)
  {
    forall i :: 0 <= i < |bases| && bases[i].ComponentBase? ==> bases[i].id < |reg.classes|
  }

  /** The `_fields_` a base contributes; a non-record base contributes none. */
  function BaseFields(reg: Registry, b: Base): Fields
    requires b.ComponentBase? ==> b.id < |reg.classes|
  {
    if b.ComponentBase? then reg.classes[b.id].fields else []
  }

  /** The union of the bases' `_fields_` keys. */
  function Supplied(reg: Registry, bases: seq<Base>): set<string>
    requires BasesKnown(reg, bases)
    decreases |bases|
  {
    if |bases| == 0 then {}
    else Supplied(reg, bases[..|bases| - 1]) + Keys(BaseFields(reg, bases[|bases| - 1]))
  }

  /** A name is in the union exactly when some base has it. */
  lemma {:induction false} SuppliedMembers(reg: Registry, bases: seq<Base>, k: string)
    requires BasesKnown(reg, bases)
    ensures k in Supplied(reg, bases) <==> exists i :: 0 <= i < |bases| && k in Keys(BaseFields(reg, bases[i]))
    decreases |bases|
  {
    if |bases| > 0 {
      var n := |bases|;
      var pre := bases[..n - 1];
      assert forall i :: 0 <= i < n - 1 ==> pre[i] == bases[i];
      SuppliedMembers(reg, pre, k);
    }
  }

  /** `Namespace.__init__`: the bases' `_fields_` merged in base order. */
  function Inherit(reg: Registry, bases: seq<Base>): (r: Fields)
    requires BasesKnown(reg, bases)
    ensures Keys(r) == Supplied(reg, bases)
    decreases |bases|
  {
    if |bases| == 0 then []
    else Merge(Inherit(reg, bases[..|bases| - 1]), BaseFields(reg, bases[|bases| - 1]))
  }

  /** Every entry of `fs` is a field bound to exactly its own key. */
  predicate AllBound(fs: Fields, bound: map<FieldId, string>)
  {
    forall p :: p in fs ==> p.1.id in bound && bound[p.1.id] == p.0
  }

  /** What `ComponentMeta` guarantees of each class: `_fields_` is a dict,
      `_names_` is its key set, bases precede the class, and every field is
      bound to the name it is stored under. */
  predicate ClassWF(reg: Registry, c: ClassId)
    requires c < |reg.classes|
  {
    var info := reg.classes[c];
    && Distinct(info.fields)
    && info.names == Keys(info.fields)
    && (forall i :: 0 <= i < |info.bases| ==> info.bases[i] < c)
    && AllBound(info.fields, reg.bound)
  }

  predicate RegistryWF(reg: Registry)
  {
    forall c :: 0 <= c < |reg.classes| ==> ClassWF(reg, c)
  }

  /** The registry holding only `Component` itself, which declares no field. */
  function Initial(): (reg: Registry)
    ensures RegistryWF(reg) && |reg.classes| == 1
  {
    Registry([ClassInfo([], [], {})], map[])
  }

  /** The class body layered on top of the inherited fields, statement by
      statement; stops at the first error. Bindings made before an error
      persist, as `set_name` mutates the field object. */
  datatype Layered = Layered(bound: map<FieldId, string>, fields: Fields, error: Option<Error>)

  /** `Namespace.__setitem__` / `__delitem__` over the class body. */
  function Layer(bound: map<FieldId, string>, fs: Fields, body: seq<Stmt>): (l: Layered)
    ensures forall id :: id in bound ==> id in l.bound && l.bound[id] == bound[id]
    ensures Keys(fs) <= Keys(l.fields)
    ensures l.error.None? ==> forall i :: 0 <= i < |body| ==> !body[i].Delete?
    decreases |body|
  {
    if |body| == 0 then Layered(bound, fs, None)
    else match body[0]
      case Delete(_) => Layered(bound, fs, Some(DeleteNotAllowed))
      case Assign(n, Attribute) => Layer(bound, fs, body[1..])
      case Assign(n, FieldItem(f)) =>
        if f.id in bound then Layered(bound, fs, Some(AlreadyBound(bound[f.id])))
        else Layer(bound[f.id := n], Put(fs, n, f), body[1..])
  }

  /** The new registry, and the new class's id or the error the class body raised. */
  datatype Declared = Declared(reg: Registry, result: Result<ClassId, Error>)

  /** The ids of the record-type bases. */
  function ComponentBases(bases: seq<Base>): (ids: seq<ClassId>)
    ensures forall c :: c in ids <==> ComponentBase(c) in bases
  {
    if |bases| == 0 then []
    else
      var rest := ComponentBases(bases[1..]);
      assert forall b :: b in bases <==> b == bases[0] || b in bases[1..];
      if bases[0].ComponentBase? then [bases[0].id] + rest else rest
  }

  /** Defining `class C(bases): body` with `ComponentMeta`. */
  function DeclareClass(reg: Registry, bases: seq<Base>, body: seq<Stmt>): (d: Declared)
    requires BasesKnown(reg, bases)
    ensures d.result.Success? ==> d.result.value == |reg.classes| && |d.reg.classes| == |reg.classes| + 1
    ensures d.result.Failure? ==> d.reg.classes == reg.classes
    ensures d.reg.classes[..|reg.classes|] == reg.classes
    ensures forall id :: id in reg.bound ==> id in d.reg.bound && d.reg.bound[id] == reg.bound[id]
  {
    var l := Layer(reg.bound, Inherit(reg, bases), body);
    if l.error.Some? then Declared(reg.(bound := l.bound), Failure(l.error.value))
    else
      var info := ClassInfo(ComponentBases(bases), l.fields, Keys(l.fields));
      Declared(Registry(reg.classes + [info], l.bound), Success(|reg.classes|))
  }

  /** `issubclass(c, t)` over record types. Bases precede their class, so
      a superclass never has a larger id. */
  predicate IsSubclass(reg: Registry, c: ClassId, t: ClassId)
    ensures IsSubclass(reg, c, t) ==> t <= c
    decreases c
  {
    c == t
    || (c < |reg.classes|
        && exists i :: 0 <= i < |reg.classes[c].bases| && reg.classes[c].bases[i] < c
                       && IsSubclass(reg, reg.classes[c].bases[i], t))
  }

  /** `isinstance(v, t)` for a record type `t`: only records are instances,
      a record is an instance of its own class, and of no class defined
      after it. */
  predicate IsInstance(reg: Registry, w: World, v: Value, t: ClassId)
    ensures IsInstance(reg, w, v, t) ==> v.Obj? && IsRecord(w, v.ref) && t <= w.heap[v.ref].cls
    ensures v.Obj? && IsRecord(w, v.ref) && w.heap[v.ref].cls == t ==> IsInstance(reg, w, v, t)
  {
    v.Obj? && IsRecord(w, v.ref) && IsSubclass(reg, w.heap[v.ref].cls, t)
  }

  /** `issubclass` is transitive. */
  lemma {:induction false} IsSubclassTrans(reg: Registry, a: ClassId, b: ClassId, c: ClassId)
    requires IsSubclass(reg, a, b) && IsSubclass(reg, b, c)
    ensures IsSubclass(reg, a, c)
    decreases a
  {
    if a != b {
      var i :| 0 <= i < |reg.classes[a].bases| && reg.classes[a].bases[i] < a
               && IsSubclass(reg, reg.classes[a].bases[i], b);
      IsSubclassTrans(reg, reg.classes[a].bases[i], b, c);
    }
  }

  /** An instance of a class is an instance of each of its superclasses. */
  lemma IsInstanceUp(reg: Registry, w: World, v: Value, c: ClassId, t: ClassId)
    requires IsInstance(reg, w, v, c) && IsSubclass(reg, c, t)
    ensures IsInstance(reg, w, v, t)
  {
    IsSubclassTrans(reg, w.heap[v.ref].cls, c, t);
  }

  /** A record's class never changes, so `isinstance` survives every operation. */
  lemma IsInstanceStable(reg: Registry, w: World, w': World, v: Value, t: ClassId)
    requires Extends(w, w')
    ensures IsInstance(reg, w, v, t) ==> IsInstance(reg, w', v, t)
  {
  }

  /** `FieldComp(type, default=d)`: a default that is neither absent nor
      `None` must already be an instance of `type`. */
  function CompField(reg: Registry, w: World, id: FieldId, t: ClassId, d: Default): (r: Result<FieldDecl, Error>)
    ensures r.Success? <==> (d.DefaultTo? && d.value != Null ==> IsInstance(reg, w, d.value, t))
    ensures r.Success? ==> r.value.id == id && r.value.kind == Comp(t) && r.value.default == d
    ensures r.Failure? ==> r.error == TypeMismatch(t)
  {
    if d.DefaultTo? && d.value != Null && !IsInstance(reg, w, d.value, t) then Failure(TypeMismatch(t))
    else Success(FieldDecl(id, Comp(t), d))
  }

  // ---------------------------------------------------------------------
  // Properties of class definition
  // ---------------------------------------------------------------------

  /** Base `i` supplies `k` and no later base does: with `dict.update` in
      base order, the LAST base that has a name wins. */
  predicate Provides(reg: Registry, bases: seq<Base>, i: int, k: string)
    requires BasesKnown(reg, bases)
  {
    && 0 <= i < |bases|
    && k in Keys(BaseFields(reg, bases[i]))
    && forall j :: i < j < |bases| ==> k !in Keys(BaseFields(reg, bases[j]))
  }

  lemma BaseFieldsDistinct(reg: Registry, b: Base)
    requires RegistryWF(reg) && (b.ComponentBase? ==> b.id < |reg.classes|)
    ensures Distinct(BaseFields(reg, b))
  {
    if b.ComponentBase? { assert ClassWF(reg, b.id); }
  }

  /** Only the last base holding `k` provides it. */
  lemma ProvidesUnique(reg: Registry, bases: seq<Base>, i: int, j: int, k: string)
    requires BasesKnown(reg, bases)
    requires Provides(reg, bases, i, k) && Provides(reg, bases, j, k)
    ensures i == j
  {
  }

  /** When the last base lacks `k`, providers of `k` are those of the prefix. */
  lemma ProvidesPrefix(reg: Registry, bases: seq<Base>, i: int, k: string)
    requires BasesKnown(reg, bases) && |bases| > 0
    requires k !in Keys(BaseFields(reg, bases[|bases| - 1]))
    ensures BasesKnown(reg, bases[..|bases| - 1])
    ensures Provides(reg, bases, i, k) <==> Provides(reg, bases[..|bases| - 1], i, k)
  {
    var pre := bases[..|bases| - 1];
    assert forall j :: 0 <= j < |pre| ==> pre[j] == bases[j];
  }

  /** The inherited table maps `k` to `f` exactly when the last base that has
      `k` maps it to `f`. */
  lemma {:induction false} InheritLookup(reg: Registry, bases: seq<Base>, k: string)
    requires RegistryWF(reg) && BasesKnown(reg, bases)
    ensures Lookup(Inherit(reg, bases), k).Some? <==> exists i :: Provides(reg, bases, i, k)
    ensures forall i :: Provides(reg, bases, i, k) ==>
              Lookup(Inherit(reg, bases), k) == Lookup(BaseFields(reg, bases[i]), k)
    decreases |bases|
  {
    if |bases| > 0 {
      var n := |bases|;
      var pre := bases[..n - 1];
      var last := BaseFields(reg, bases[n - 1]);
      BaseFieldsDistinct(reg, bases[n - 1]);
      assert BasesKnown(reg, pre);
      assert Inherit(reg, bases) == Merge(Inherit(reg, pre), last);
      if k in Keys(last) {
        assert Provides(reg, bases, n - 1, k);
        forall i | Provides(reg, bases, i, k) ensures i == n - 1 {
          ProvidesUnique(reg, bases, i, n - 1, k);
        }
      } else {
        InheritLookup(reg, pre, k);
        forall i ensures Provides(reg, bases, i, k) <==> Provides(reg, pre, i, k) {
          ProvidesPrefix(reg, bases, i, k);
        }
        forall i | Provides(reg, pre, i, k) ensures BaseFields(reg, pre[i]) == BaseFields(reg, bases[i]) {
          assert pre[i] == bases[i];
        }
      }
    }
  }

  /** The last binding of `k` to a field in a class body. */
  function OwnLookup(body: seq<Stmt>, k: string): Option<FieldDecl>
    decreases |body|
  {
    if |body| == 0 then None
    else
      var later := OwnLookup(body[1..], k);
      if later.Some? then later
      else if body[0].Assign? && body[0].name == k && body[0].item.FieldItem? then Some(body[0].item.field)
      else None
  }

  /** Layering the body puts each own field over the inherited table: an own
      field overrides the inherited one, other names keep theirs. */
  lemma {:induction false} LayerLookup(bound: map<FieldId, string>, fs: Fields, body: seq<Stmt>, k: string)
    requires Layer(bound, fs, body).error.None?
    ensures Lookup(Layer(bound, fs, body).fields, k) ==
            if OwnLookup(body, k).Some? then OwnLookup(body, k) else Lookup(fs, k)
    decreases |body|
  {
    if |body| > 0 {
      match body[0]
      case Assign(n, Attribute) =>
        LayerLookup(bound, fs, body[1..], k);
      case Assign(n, FieldItem(f)) =>
        LayerLookup(bound[f.id := n], Put(fs, n, f), body[1..], k);
    }
  }

  /** A class body with a `del` never defines a class. */
  lemma {:induction false} LayerDeleteFails(bound: map<FieldId, string>, fs: Fields, body: seq<Stmt>)
    requires exists i :: 0 <= i < |body| && body[i].Delete?
    ensures Layer(bound, fs, body).error.Some?
    decreases |body|
  {
    if !body[0].Delete? {
      var i :| 0 <= i < |body| && body[i].Delete?;
      assert body[1..][i - 1] == body[i];
      match body[0]
      case Assign(n, Attribute) =>
        LayerDeleteFails(bound, fs, body[1..]);
      case Assign(n, FieldItem(f)) =>
        if f.id !in bound {
          LayerDeleteFails(bound[f.id := n], Put(fs, n, f), body[1..]);
        }
    }
  }

  /** The field ids a class body binds, in order. */
  function BodyFieldIds(body: seq<Stmt>): seq<FieldId>
  {
    if |body| == 0 then []
    else if body[0].Assign? && body[0].item.FieldItem? then [body[0].item.field.id] + BodyFieldIds(body[1..])
    else BodyFieldIds(body[1..])
  }

  /** `set_name` at most once: a body that succeeds binds fields that were
      unbound and pairwise distinct, and records each under its name. */
  lemma {:induction false} LayerBindsOnce(bound: map<FieldId, string>, fs: Fields, body: seq<Stmt>)
    requires Layer(bound, fs, body).error.None?
    ensures forall id :: id in BodyFieldIds(body) ==> id !in bound && id in Layer(bound, fs, body).bound
    ensures forall i, j :: 0 <= i < j < |BodyFieldIds(body)| ==> BodyFieldIds(body)[i] != BodyFieldIds(body)[j]
    decreases |body|
  {
    if |body| > 0 {
      match body[0]
      case Assign(n, Attribute) =>
        LayerBindsOnce(bound, fs, body[1..]);
      case Assign(n, FieldItem(f)) =>
        var b' := bound[f.id := n];
        LayerBindsOnce(b', Put(fs, n, f), body[1..]);
        var ids := BodyFieldIds(body);
        assert ids == [f.id] + BodyFieldIds(body[1..]);
        forall i, j | 0 <= i < j < |ids| ensures ids[i] != ids[j] {
          if i == 0 { assert ids[j] in BodyFieldIds(body[1..]); }
        }
    }
  }

  /** A field already bound elsewhere cannot be bound again. */
  lemma {:induction false} LayerRebindFails(bound: map<FieldId, string>, fs: Fields, body: seq<Stmt>, id: FieldId)
    requires id in bound && id in BodyFieldIds(body)
    ensures Layer(bound, fs, body).error.Some?
  {
    if Layer(bound, fs, body).error.None? {
      LayerBindsOnce(bound, fs, body);
    }
  }

  /** Layering keeps the table a dict whose fields are bound to their keys. */
  lemma {:induction false} LayerWF(bound: map<FieldId, string>, fs: Fields, body: seq<Stmt>)
    requires Distinct(fs) && AllBound(fs, bound)
    ensures Distinct(Layer(bound, fs, body).fields)
    ensures AllBound(Layer(bound, fs, body).fields, Layer(bound, fs, body).bound)
    decreases |body|
  {
    if |body| > 0 {
      match body[0]
      case Delete(_) =>
      case Assign(n, Attribute) =>
        LayerWF(bound, fs, body[1..]);
      case Assign(n, FieldItem(f)) =>
        if f.id !in bound {
          var b' := bound[f.id := n];
          var fs' := Put(fs, n, f);
          assert AllBound(fs', b') by {
            forall p | p in fs' ensures p.1.id in b' && b'[p.1.id] == p.0 {
              if p != (n, f) { assert p in fs; }
            }
          }
          LayerWF(b', fs', body[1..]);
        }
    }
  }

  lemma {:induction false} InheritWF(reg: Registry, bases: seq<Base>)
    requires RegistryWF(reg) && BasesKnown(reg, bases)
    ensures Distinct(Inherit(reg, bases)) && AllBound(Inherit(reg, bases), reg.bound)
    decreases |bases|
  {
    if |bases| > 0 {
      var n := |bases|;
      assert BasesKnown(reg, bases[..n - 1]);
      InheritWF(reg, bases[..n - 1]);
      if bases[n - 1].ComponentBase? {
        assert ClassWF(reg, bases[n - 1].id);
      }
    }
  }

  /** Defining a class keeps every class of the registry well formed. */
  lemma DeclarePreservesWF(reg: Registry, bases: seq<Base>, body: seq<Stmt>)
    requires RegistryWF(reg) && BasesKnown(reg, bases)
    ensures RegistryWF(DeclareClass(reg, bases, body).reg)
  {
    var d := DeclareClass(reg, bases, body);
    var inh := Inherit(reg, bases);
    InheritWF(reg, bases);
    LayerWF(reg.bound, inh, body);
    var l := Layer(reg.bound, inh, body);
    forall c | 0 <= c < |d.reg.classes| ensures ClassWF(d.reg, c) {
      if c < |reg.classes| {
        assert ClassWF(reg, c);
        assert d.reg.classes[c] == reg.classes[c];
      } else {
        var info := d.reg.classes[c];
        forall i | 0 <= i < |info.bases| ensures info.bases[i] < c {
          assert ComponentBase(info.bases[i]) in bases;
        }
      }
    }
  }

  /** The new class's `_fields_`: an own field wins; any other name comes from
      the last base that has it. Its `_names_` is the key set of `_fields_`,
      which is the inherited names together with the own field names. */
  lemma DeclareFields(reg: Registry, bases: seq<Base>, body: seq<Stmt>, k: string)
    requires RegistryWF(reg) && BasesKnown(reg, bases)
    requires DeclareClass(reg, bases, body).result.Success?
    ensures var d := DeclareClass(reg, bases, body);
            var info := d.reg.classes[d.result.value];
            && (OwnLookup(body, k).Some? ==> Lookup(info.fields, k) == OwnLookup(body, k))
            && (OwnLookup(body, k).None? ==>
                  (Lookup(info.fields, k).Some? <==> exists i :: Provides(reg, bases, i, k))
                  && forall i :: Provides(reg, bases, i, k) ==>
                       Lookup(info.fields, k) == Lookup(BaseFields(reg, bases[i]), k))
            && (k in info.names <==> OwnLookup(body, k).Some? || exists i :: Provides(reg, bases, i, k))
  {
    var inh := Inherit(reg, bases);
    LayerLookup(reg.bound, inh, body, k);
    InheritLookup(reg, bases, k);
  }

  /** A class body containing `del` fails with "Not allowed" or an earlier error. */
  lemma DeclareDeleteFails(reg: Registry, bases: seq<Base>, body: seq<Stmt>)
    requires BasesKnown(reg, bases)
    requires exists i :: 0 <= i < |body| && body[i].Delete?
    ensures DeclareClass(reg, bases, body).result.Failure?
  {
    LayerDeleteFails(reg.bound, Inherit(reg, bases), body);
  }

  /** Each field descriptor is named once: a definition that binds an already
      bound field fails, and a successful one binds each of its fields to its name. */
  lemma DeclareBindsOnce(reg: Registry, bases: seq<Base>, body: seq<Stmt>)
    requires BasesKnown(reg, bases)
    ensures (exists id :: id in reg.bound && id in BodyFieldIds(body)) ==>
              DeclareClass(reg, bases, body).result.Failure?
    ensures DeclareClass(reg, bases, body).result.Success? ==>
              forall id :: id in BodyFieldIds(body) ==> id !in reg.bound && id in DeclareClass(reg, bases, body).reg.bound
  {
    var inh := Inherit(reg, bases);
    if exists id :: id in reg.bound && id in BodyFieldIds(body) {
      var id :| id in reg.bound && id in BodyFieldIds(body);
      LayerRebindFails(reg.bound, inh, body, id);
    }
    if DeclareClass(reg, bases, body).result.Success? {
      LayerBindsOnce(reg.bound, inh, body);
    }
  }

  /** Instances of the new class are instances of each record-type base. */
  lemma DeclareSubclass(reg: Registry, bases: seq<Base>, body: seq<Stmt>, b: ClassId)
    requires BasesKnown(reg, bases)
    requires DeclareClass(reg, bases, body).result.Success?
    requires ComponentBase(b) in bases
    ensures IsSubclass(DeclareClass(reg, bases, body).reg, |reg.classes|, b)
  {
    var d := DeclareClass(reg, bases, body);
    var c := |reg.classes|;
    assert b in d.reg.classes[c].bases;
    var i :| 0 <= i < |d.reg.classes[c].bases| && d.reg.classes[c].bases[i] == b;
    var k :| 0 <= k < |bases| && bases[k] == ComponentBase(b);
    assert b < c;
    assert IsSubclass(d.reg, b, b);
  }
}

=== FILE: slots.dfy ===
/**
 * The slot engine: `Field.__get__`/`__set__` with the `getter`/`setter` of
 * `Field`, `FieldComp`, `FieldDict` and `FieldList`. A record keeps two stores
 * in step: the decode cache (`__dict__`) and the backing plain dict (`_plain_`).
 */
module Slots {
  import opened Wrappers
  import opened Heap
  import opened Schema

  /** The record's `_plain_` when it is a dict (always, unless the record was
      made by `from_plain` over something else). */
  function BackingDict(w: World, inst: Ref): (d: Option<Ref>)
    requires IsRecord(w, inst)
    ensures d.Some? ==> IsDict(w, d.value) && w.heap[inst].backing == Obj(d.value)
  {
    var b := w.heap[inst].backing;
    if b.Obj? && IsDict(w, b.ref) then Some(b.ref) else None
  }

  /** `plain.get(name, sentinel)`. */
  function Raw(w: World, d: Ref, name: string): Option<Value>
    requires IsDict(w, d)
  {
    var e := w.heap[d].entries;
    if Str(name) in e then Some(e[Str(name)]) else None
  }

  /** The plain value persisted for a slot encodes its decoded value: itself
      for a simple field, `None` for `None`, otherwise the value's `_plain_`. */
  predicate Encodes(w: World, k: Kind, v: Value, pv: Value)
  {
    if k.Simple? then pv == v else (v == Null && pv == Null) || PlainOf(w, v) == Some(pv)
  }

  /** The aliasing invariant of one slot: a cached value's encoding is exactly
      what the backing dict holds under that name. */
  predicate SlotCoherent(w: World, inst: Ref, name: string, k: Kind)
    requires IsRecord(w, inst)
  {
    name in w.heap[inst].cache ==>
      && BackingDict(w, inst).Some?
      && Str(name) in w.heap[BackingDict(w, inst).value].entries
      && Encodes(w, k, w.heap[inst].cache[name], w.heap[BackingDict(w, inst).value].entries[Str(name)])
  }

  /** `getter(plainval)`: the decoded value and the plain value to persist. */
  function Getter(w: World, name: string, f: FieldDecl, raw: Option<Value>): (o: Outcome<(Value, Value)>)
    requires WF(w)
    ensures o.Err? ==> o.w == w
    ensures o.Ok? ==> Grows(w, o.w) && Encodes(o.w, f.kind, o.value.0, o.value.1)
    ensures o.Ok? && raw.Some? ==> o.value.1 == raw.value
  {
    match f.kind
    case Simple =>
      if raw.Some? then Ok(w, (raw.value, raw.value))
      else if f.default.DefaultTo? then Ok(w, (f.default.value, f.default.value))
      else Err(w, NotInitialized(name))
    case Comp(t) =>
      if raw.None? then
        if f.default.NoDefault? then Err(w, NotInitialized(name))
        else if f.default.value == Null then Ok(w, (Null, Null))
        else match PlainOf(w, f.default.value)
          case None => Err(w, NoPlain)
          case Some(p) => Ok(w, (f.default.value, p))
      else if raw.value == Null then Ok(w, (Null, Null))
      else
        var (w1, r) := Alloc(w, Record(t, raw.value, map[]));
        Ok(w1, (Obj(r), raw.value))
    case DictOf(e) =>
      var (w1, node) := if raw.Some? then (w, raw.value)
                        else var (w', r) := Alloc(w, DictNode(map[])); (w', Obj(r));
      if !(node.Obj? && IsDict(w1, node.ref)) then Err(w, NotADict)
      else
        var (w2, p) := Alloc(w1, DictProxy(e, node.ref, map[]));
        Ok(w2, (Obj(p), node))
    case ListOf(e) =>
      var (w1, node) := if raw.Some? then (w, raw.value)
                        else var (w', r) := Alloc(w, ListNode([])); (w', Obj(r));
      if !(node.Obj? && IsList(w1, node.ref)) then Err(w, NotAList)
      else
        var (w2, p) := Alloc(w1, ListProxy(e, node.ref, None));
        Ok(w2, (Obj(p), node))
  }

  /** What the `FieldDict` and `FieldList` getters make of an absent slot: a
      new proxy of the element type over a new empty container, with nothing
      decoded yet. */
  predicate EmptyView(w: World, v: Value, k: Kind)
  {
    && v.Obj? && v.ref in w.heap
    && match k
       case DictOf(e) =>
         var px := w.heap[v.ref];
         px.DictProxy? && px.elem == e && px.objects == map[] && px.dict in w.heap && w.heap[px.dict] == DictNode(map[])
       case ListOf(e) =>
         var px := w.heap[v.ref];
         px.ListProxy? && px.elem == e && px.shadow.None? && px.list in w.heap && w.heap[px.list] == ListNode([])
       case _ => false
  }

  /** `setter(value)`: the value to cache and the plain value to persist. */
  function Setter(reg: Registry, w: World, f: FieldDecl, v: Value): (r: Result<(Value, Value), Error>)
    ensures r.Success? ==> r.value.0 == v && Encodes(w, f.kind, v, r.value.1)
    ensures r.Failure? <==> f.kind.DictOf? || f.kind.ListOf? || (f.kind.Comp? && v != Null && !IsInstance(reg, w, v, f.kind.target))
  {
    match f.kind
    case Simple => Success((v, v))
    case Comp(t) =>
      if v == Null then Success((Null, Null))
      else if !IsInstance(reg, w, v, t) then Failure(TypeMismatch(t))
      else Success((v, w.heap[v.ref].backing))
    case DictOf(_) => Failure(CannotSet("FieldDict"))
    case ListOf(_) => Failure(CannotSet("FieldList"))
  }

  /** `Field.__get__(instance)`: a cache hit returns the cached value; a miss
      resolves the raw value and writes the result into both stores. */
  function GetSlot(w: World, inst: Ref, name: string, f: FieldDecl): (o: Outcome<Value>)
    requires WF(w) && IsRecord(w, inst)
    ensures Extends(w, o.w)
    ensures o.Err? ==> o.w == w
    // A cache hit decodes nothing and leaves every store as it was.
    ensures name in w.heap[inst].cache ==> o == Ok(w, w.heap[inst].cache[name])
    // A miss writes the same name into the cache and the backing dict, and nothing else.
    ensures name !in w.heap[inst].cache && o.Ok? ==>
              && BackingDict(w, inst).Some?
              && var d := BackingDict(w, inst).value;
                 && IsRecord(o.w, inst) && IsDict(o.w, d)
                 && o.w.heap[inst] == w.heap[inst].(cache := w.heap[inst].cache[name := o.value])
                 && Str(name) in o.w.heap[d].entries
                 && o.w.heap[d].entries == w.heap[d].entries[Str(name) := o.w.heap[d].entries[Str(name)]]
                 && SlotCoherent(o.w, inst, name, f.kind)
                 && (forall r :: r in w.heap && r != inst && r != d ==> o.w.heap[r] == w.heap[r])
    // Reading a present raw value persists it unchanged: the plain tree is untouched.
    ensures name !in w.heap[inst].cache && o.Ok? && Raw(w, BackingDict(w, inst).value, name).Some? ==>
              o.w.heap[BackingDict(w, inst).value] == w.heap[BackingDict(w, inst).value]
  {
    var rec := w.heap[inst];
    if name in rec.cache then Ok(w, rec.cache[name])
    else match BackingDict(w, inst)
      case None => Err(w, NotAMapping)
      case Some(d) =>
        var entries := w.heap[d].entries;
        match Getter(w, name, f, Raw(w, d, name))
        case Err(_, e) => Err(w, e)
        case Ok(w1, (ret, pv)) =>
          GrowsExtends(w, w1);
          var w2 := Store(w1, inst, rec.(cache := rec.cache[name := ret]));
          var w3 := Store(w2, d, DictNode(entries[Str(name) := pv]));
          assert Encodes(w3, f.kind, ret, pv) by {
            if PlainOf(w1, ret).Some? { PlainOfStable(w1, w3, ret); }
          }
          assert Raw(w, d, name).Some? ==> DictNode(entries[Str(name) := pv]) == w.heap[d];
          Ok(w3, ret)
  }

  /** `Field.__set__(instance, value)`: the setter's result goes into both
      stores under one name; every other slot and object is unchanged. */
  function SetSlot(reg: Registry, w: World, inst: Ref, name: string, f: FieldDecl, v: Value): (o: Outcome<()>)
    requires WF(w) && IsRecord(w, inst)
    ensures Extends(w, o.w)
    ensures o.Ok? <==> Setter(reg, w, f, v).Success? && BackingDict(w, inst).Some?
    ensures o.Err? && o.error != NotAMapping ==> o.w == w
    ensures o.Ok? ==>
              var d := BackingDict(w, inst).value;
              && IsRecord(o.w, inst) && IsDict(o.w, d)
              && o.w.heap[inst] == w.heap[inst].(cache := w.heap[inst].cache[name := v])
              && Str(name) in o.w.heap[d].entries
              && o.w.heap[d].entries == w.heap[d].entries[Str(name) := o.w.heap[d].entries[Str(name)]]
              && SlotCoherent(o.w, inst, name, f.kind)
              && (forall r :: r in w.heap && r != inst && r != d ==> o.w.heap[r] == w.heap[r])
              && o.w.heap.Keys == w.heap.Keys
  {
    match Setter(reg, w, f, v)
    case Failure(e) => Err(w, e)
    case Success((ret, pv)) =>
      var rec := w.heap[inst];
      var w1 := Store(w, inst, rec.(cache := rec.cache[name := ret]));
      match BackingDict(w, inst)
      case None => Err(w1, NotAMapping)
      case Some(d) =>
        var w2 := Store(w1, d, DictNode(w.heap[d].entries[Str(name) := pv]));
        assert Encodes(w2, f.kind, ret, pv) by {
          if PlainOf(w, ret).Some? { PlainOfStable(w, w2, ret); }
        }
        Ok(w2, ())
  }

  /** The slot is unresolvable (`getter` raises) for this raw value. */
  predicate GetterFails(w: World, f: FieldDecl, raw: Option<Value>)
  {
    match f.kind
    case Simple => raw.None? && f.default.NoDefault?
    case Comp(_) =>
      raw.None? && (f.default.NoDefault? || (f.default.value != Null && PlainOf(w, f.default.value).None?))
    case DictOf(_) => raw.Some? && !(raw.value.Obj? && IsDict(w, raw.value.ref))
    case ListOf(_) => raw.Some? && !(raw.value.Obj? && IsList(w, raw.value.ref))
  }

  /** How a slot resolves on a cache miss. A present raw value is returned
      as is by a simple field and decoded by a nested-object field into a
      fresh record whose `_plain_` is that very sub-tree (`None` stays
      `None`); an absent value takes the default (the shared default object
      itself for a nested-object field); an absent value with no default is
      "not initialized". */
  lemma GetSlotResolves(w: World, inst: Ref, name: string, f: FieldDecl)
    requires WF(w) && IsRecord(w, inst) && name !in w.heap[inst].cache && BackingDict(w, inst).Some?
    ensures var raw := Raw(w, BackingDict(w, inst).value, name);
            var o := GetSlot(w, inst, name, f);
            && (o.Err? <==> GetterFails(w, f, raw))
            && (o.Err? && raw.None? && f.default.NoDefault? && (f.kind.Simple? || f.kind.Comp?) ==>
                  o.error == NotInitialized(name))
            && (o.Ok? && raw.None? && (f.kind.Simple? || f.kind.Comp?) ==> f.default == DefaultTo(o.value))
            && (o.Ok? && raw.None? && (f.kind.DictOf? || f.kind.ListOf?) ==> EmptyView(o.w, o.value, f.kind))
            && (o.Ok? && raw.Some? && f.kind.Simple? ==> o.value == raw.value)
            && (o.Ok? && raw == Some(Null) && f.kind.Comp? ==> o.value == Null)
            && (o.Ok? && raw.Some? && raw != Some(Null) && f.kind.Comp? ==>
                  o.value.Obj? && o.value.ref !in w.heap
                  && o.w.heap[o.value.ref] == Record(f.kind.target, raw.value, map[]))
  {
  }

  /** The partner of `FieldComp.__init__`'s check: a nested-object field it
      accepted resolves an absent slot unless it has no default at all, so in
      any later state a read of its slot never fails for want of a
      `_plain_`; it raises only "not initialized" or, over a record whose
      `_plain_` is not a dict, the mapping error. */
  lemma CompFieldResolves(reg: Registry, w: World, w': World, id: FieldId, t: ClassId, d: Default,
                          inst: Ref, name: string)
    requires CompField(reg, w, id, t, d).Success? && Extends(w, w') && IsRecord(w', inst)
    ensures var f := CompField(reg, w, id, t, d).value;
            forall raw :: GetterFails(w', f, raw) <==> raw.None? && d.NoDefault?
    ensures var o := GetSlot(w', inst, name, CompField(reg, w, id, t, d).value);
            o.Err? ==> o.error == NotAMapping || (d.NoDefault? && o.error == NotInitialized(name))
  {
  }

  /** Nested defaults are shared, not copied: every record that falls back to
      an instance default caches that very object, and persists its `_plain_`. */
  lemma SharedDefault(w: World, inst: Ref, name: string, f: FieldDecl, dflt: Ref)
    requires WF(w) && IsRecord(w, inst) && name !in w.heap[inst].cache
    requires BackingDict(w, inst).Some? && Raw(w, BackingDict(w, inst).value, name).None?
    requires f.kind.Comp? && f.default == DefaultTo(Obj(dflt)) && IsRecord(w, dflt)
    ensures var o := GetSlot(w, inst, name, f);
            && o == Ok(o.w, Obj(dflt))
            && o.w.heap[BackingDict(w, inst).value].entries[Str(name)] == w.heap[dflt].backing
  {
  }

  /** Aliasing: when a parent's backing dict holds a child's `_plain_` under
      `name` (as a nested-object slot leaves it), a write through the child
      is seen through the parent's plain tree, by reference. */
  lemma {:induction false} WriteThroughChild(reg: Registry, w: World, parent: Ref, name: string,
                                            child: Ref, k: string, fk: FieldDecl, v: Value)
    requires WF(w) && IsRecord(w, parent) && IsRecord(w, child) && fk.kind.Simple?
    requires BackingDict(w, parent).Some? && BackingDict(w, child).Some?
    requires BackingDict(w, parent) != BackingDict(w, child)
    requires Raw(w, BackingDict(w, parent).value, name) == Some(w.heap[child].backing)
    ensures var o := SetSlot(reg, w, child, k, fk, v);
            var pd := BackingDict(w, parent).value;
            var cd := BackingDict(w, child).value;
            && o.Ok?
            && IsDict(o.w, pd) && o.w.heap[pd] == w.heap[pd]
            && o.w.heap[pd].entries[Str(name)] == Obj(cd)
            && IsDict(o.w, cd) && Str(k) in o.w.heap[cd].entries && o.w.heap[cd].entries[Str(k)] == v
  {
    var o := SetSlot(reg, w, child, k, fk, v);
    assert Setter(reg, w, fk, v) == Success((v, v));
    assert o.Ok?;
    var cd := BackingDict(w, child).value;
    assert SlotCoherent(o.w, child, k, fk.kind);
    assert BackingDict(o.w, child) == Some(cd);
  }

  /** Reading a slot whose raw value is already present leaves the whole
      backing dict as it was, so a record read only through its slots still
      round-trips to the very tree it was built from. */
  lemma GetKeepsPlain(w: World, inst: Ref, name: string, f: FieldDecl)
    requires WF(w) && IsRecord(w, inst) && BackingDict(w, inst).Some?
    requires Raw(w, BackingDict(w, inst).value, name).Some?
    requires GetSlot(w, inst, name, f).Ok?
    ensures var o := GetSlot(w, inst, name, f);
            && IsRecord(o.w, inst) && o.w.heap[inst].backing == w.heap[inst].backing
            && o.w.heap[BackingDict(w, inst).value] == w.heap[BackingDict(w, inst).value]
  {
  }
}

=== FILE: text.dfy ===
/**
 * Strings as Python orders and joins them: `sorted()` on `str` compares code
 * points lexicographically, and `', '.join(...)` concatenates with a separator.
 * The construction errors report their names through these two operations.
 */
module Text {

  /** Python's `a <= b` on `str`: lexicographic by code point, a prefix first. */
  predicate Le(a: string, b: string)
    decreases |a|
  {
    |a| == 0 || (|b| > 0 && (a[0] < b[0] || (a[0] == b[0] && Le(a[1..], b[1..]))))
  }

  lemma {:induction false} LeRefl(a: string)
    ensures Le(a, a)
    decreases |a|
  {
    if |a| > 0 {
      LeRefl(a[1..]);
    }
  }

  lemma {:induction false} LeTotal(a: string, b: string)
    ensures Le(a, b) || Le(b, a)
    decreases |a|
  {
    if |a| > 0 && |b| > 0 && a[0] == b[0] {
      LeTotal(a[1..], b[1..]);
    }
  }

  lemma {:induction false} LeTrans(a: string, b: string, c: string)
    requires Le(a, b) && Le(b, c)
    ensures Le(a, c)
    decreases |a|
  {
    if |a| > 0 && a[0] == b[0] && b[0] == c[0] {
      LeTrans(a[1..], b[1..], c[1..]);
    }
  }

  lemma {:induction false} LeAntisym(a: string, b: string)
    requires Le(a, b) && Le(b, a)
    ensures a == b
    decreases |a|
  {
    if |a| > 0 {
      LeAntisym(a[1..], b[1..]);
      assert a == [a[0]] + a[1..] && b == [b[0]] + b[1..];
    }
  }

  predicate Sorted(s: seq<string>)
  {
    forall i, j :: 0 <= i < j < |s| ==> Le(s[i], s[j])
  }

  /** Inserts `x` into a sorted sequence, keeping it sorted. */
  function Insert(x: string, s: seq<string>): (r: seq<string>)
    requires Sorted(s)
    ensures Sorted(r)
    ensures multiset(r) == multiset(s) + multiset{x}
  {
    if |s| == 0 then [x]
    else if Le(x, s[0]) then
      assert forall j :: 0 < j < |s| ==> Le(x, s[j]) by {
        forall j | 0 < j < |s| ensures Le(x, s[j]) { LeTrans(x, s[0], s[j]); }
      }
      [x] + s
    else
      LeTotal(x, s[0]);
      var t := Insert(x, s[1..]);
      InsertBehindHead(x, s, t);
      [s[0]] + t
  }

  /** The head of a sorted sequence stays in front of `x` inserted behind it. */
  lemma InsertBehindHead(x: string, s: seq<string>, t: seq<string>)
    requires Sorted(s) && |s| > 0 && Le(s[0], x)
    requires Sorted(t) && multiset(t) == multiset(s[1..]) + multiset{x}
    ensures Sorted([s[0]] + t)
    ensures multiset([s[0]] + t) == multiset(s) + multiset{x}
  {
    assert s == [s[0]] + s[1..];
    assert forall y :: y in multiset(t) ==> Le(s[0], y) by {
      forall y | y in multiset(t) ensures Le(s[0], y) {
        if y != x {
          assert y in multiset(s[1..]);
          var j :| 0 <= j < |s[1..]| && s[1..][j] == y;
          assert s[j + 1] == y;
        }
      }
    }
    assert forall j :: 0 <= j < |t| ==> Le(s[0], t[j]) by {
      forall j | 0 <= j < |t| ensures Le(s[0], t[j]) { assert t[j] in multiset(t); }
    }
  }

  /** Python's `sorted()` of a collection of names. */
  function Sort(s: seq<string>): (r: seq<string>)
    ensures Sorted(r)
    ensures multiset(r) == multiset(s)
  {
    if |s| == 0 then []
    else
      assert s == [s[0]] + s[1..];
      Insert(s[0], Sort(s[1..]))
  }

  /** The head of a sorted sequence is at most each of its elements. */
  lemma HeadIsLeast(s: seq<string>, x: string)
    requires Sorted(s) && x in multiset(s)
    ensures |s| > 0 && Le(s[0], x)
  {
    var i :| 0 <= i < |s| && s[i] == x;
    if i == 0 { LeRefl(x); }
  }

  lemma TailMultiset(s: seq<string>)
    requires |s| > 0
    ensures multiset(s[1..]) == multiset(s) - multiset{s[0]}
  {
    assert s == [s[0]] + s[1..];
  }

  /** A sorted arrangement of a multiset is unique: the head is the least element. */
  lemma {:induction false} SortedUnique(a: seq<string>, b: seq<string>)
    requires Sorted(a) && Sorted(b)
    requires multiset(a) == multiset(b)
    ensures a == b
    decreases |a|
  {
    if |a| == 0 {
      assert |multiset(b)| == 0;
    } else {
      HeadIsLeast(b, a[0]);
      HeadIsLeast(a, b[0]);
      LeAntisym(a[0], b[0]);
      TailMultiset(a);
      TailMultiset(b);
      SortedUnique(a[1..], b[1..]);
      assert a == [a[0]] + a[1..] && b == [b[0]] + b[1..];
    }
  }

  /** The sorted report depends only on which names are reported, not on
      the order in which they were collected. */
  lemma SortDeterministic(s: seq<string>, t: seq<string>)
    requires multiset(s) == multiset(t)
    ensures Sort(s) == Sort(t)
  {
    SortedUnique(Sort(s), Sort(t));
  }

  /** Python's `sep.join(xs)`: no separator before the first part or after
      the last. */
  function Join(xs: seq<string>, sep: string): (r: string)
    ensures |xs| == 0 ==> r == ""
    ensures |xs| == 1 ==> r == xs[0]
  {
    if |xs| == 0 then ""
    else if |xs| == 1 then xs[0]
    else xs[0] + sep + Join(xs[1..], sep)
  }

  /** Joining one more part appends the separator and that part. */
  lemma {:induction false} JoinSnoc(xs: seq<string>, x: string, sep: string)
    requires |xs| > 0
    ensures Join(xs + [x], sep) == Join(xs, sep) + sep + x
    decreases |xs|
  {
    var ys := xs + [x];
    assert ys[0] == xs[0] && ys[1..] == xs[1..] + [x];
    if |xs| == 1 {
      assert Join(ys[1..], sep) == x;
    } else {
      JoinSnoc(xs[1..], x, sep);
      var mid := Join(xs[1..], sep);
      assert Join(ys, sep) == xs[0] + sep + (mid + sep + x);
      assert Join(xs, sep) == xs[0] + sep + mid;
    }
  }
}

=== FILE: wrappers.dfy ===
/** Failure-compatible helper datatypes shared by every module of the model. */
module Wrappers {

  /** Python's `sentinel`-or-value: `None` stands for the absent value. */
  datatype Option<+T> = None | Some(value: T)

  /** A success value or an error value. */
  datatype Result<+T, +E> = Success(value: T) | Failure(error: E)
}
